=== FILE: README.md ===
# IED LCD Editor — a Dafny model

The IED LCD Editor customises the LCD of an Infinity ErgoDox keyboard. It has
eight screens. Each screen has a 32-row black-and-white image (128 columns for
screen 0, 32 for screens 1..7) and a backlight colour given as three
percentages.

The editor does four things this project models:

- it packs each image into the byte layout the LCD controller reads;
- it keeps the colours in a text file of 24 integers;
- it previews a screen by sending command lines over the keyboard's serial
  console;
- it saves by patching a donor firmware image: one forward pass copies the
  donor and replaces three marked regions with the images and colours.

All of it is written as pure functions over `seq`s, with the properties proved
as contracts and lemmas.

| file | module | what it holds |
|---|---|---|
| `base.dfy` | `Base` | bytes, `Option`, `Result`, and the bit view of a byte (`Bit`, `FromBits`, `ToBits`) |
| `text.dfy` | `Text` | Python `str()`, `hex()` and `int()` on the texts involved, with their round trips |
| `bitmap.dfy` | `Bitmap` | image size check, plane packing and unpacking, "Reload Image" |
| `colors.dfy` | `ColorConfig` | loading and saving the colour file, clamping, scaling to 0..65535 |
| `patcher.dfy` | `Patcher` | the scan over the donor, its event trace, the trace's declarative description, output placement and length |
| `firmware.dfy` | `Firmware` | the three payloads and the firmware save |
| `preview.dfy` | `Preview` | `lcdInit` / `lcdColor` / `lcdDisp` command text, its decoder, and the preview of one screen |
| `session.dfy` | `Session` | start-up (images, then colours) and "Save", with the restart round trip |

### The patcher

The patcher is modelled as a scanner, `Patcher.Scan`, that turns the donor
into a trace of events:

- `Copy(b)`: byte `b` was scanned and written;
- `Fire(m, b, skipped)`: scanning `b` completed marker `m`. The payload was
  written in place of `b`, and `skipped` was read past without being scanned.

The output is what the events write (`Render`). The donor is what the events
consume (`Consumed`).

`TraceSpec` says event by event what the right reaction to each window is.
Two lemmas tie it to the scanner:

- `ScanMeetsSpec`: the scanner's trace meets `TraceSpec`;
- `SpecDeterminesScan`: any trace that meets it and consumes the donor is the
  scanner's trace.

The copy, fire and skip guarantees are stated over that description.

### Where the model follows the code

These details are easy to misread in the code. The model takes them exactly
as the code writes them:

- The functions marker is eleven 0xFC, then six 0xFF, then three 0x00.
- The functions payload starts with two zero bytes (`bytes(2)`). So its 898
  bytes are exactly as long as the marker byte plus the 897 skipped bytes.
- Colour words are written low byte first. `divmod` returns the quotient as
  `lo` and the remainder as `hi`, and `hi` is written first, so the
  remainder comes first.
- The preview's `lcdDisp` fields are Python `hex()` text: a `0x` prefix,
  lower-case digits, no padding.
- For screens 1..7 every column from 32 up is sent as 0. That covers
  segments 2..7.

## Model

| member | source | states |
|---|---|---|
| Bitmap.ScreenWidth | Source/IEDLCDE.py:79-88 | screen 0 needs 128 columns, screens 1..7 need 32 (`128 - 96*min(1, n)`) |
| Bitmap.Pack | Source/IEDLCDE.py:89-101 | the buffer has `4*w` bytes; bit `z` of byte `p*w + x` is set iff pixel (x, (3-p)*8+7-z) is black |
| Bitmap.RowBijection | Source/IEDLCDE.py:98-101 | every image row has exactly one (plane, bit) slot and every slot holds exactly one row |
| Bitmap.UnpackPack | Source/IEDLCDE.py:89-101 | unpacking a packed 32-row image gives back every pixel |
| Bitmap.PackUnpack | Source/IEDLCDE.py:89-101 | every buffer of length `4*w` is the packing of the image it shows, so packing is a bijection |
| Bitmap.LoadImage | Source/IEDLCDE.py:79-101 | an image is accepted iff it is 32 rows high and 128 (screen 0) or 32 (screens 1..7) wide; the error names the screen, the required size and the actual size; an accepted image unpacks to itself |
| Bitmap.ReloadAsWritten | Source/IEDLCDE.py:345-363 | the reload clears the old buffer and ORs in a bit only for black pixels, packing with the image's own width: it fails (IndexError) iff the image has columns and either is under 32 rows or has a black pixel whose index `p*w + x` is past the buffer's end; otherwise the buffer keeps its length, every pixel stored inside it is at `p*w + x`, and every byte past `4*w` is 0 |
| Bitmap.SpillsIff | Source/IEDLCDE.py:359-363 | a packed byte at or past index `n` is non-zero iff some black pixel is stored at or past `n` |
| Bitmap.ReloadAcceptsWrongSize | Source/IEDLCDE.py:345-363 | a 16x32 all-black image on screen 1 is refused at start-up but accepted by the reload, and the device's top-left pixel, black in the image, is blank |
| Bitmap.ReloadAcceptsWhiteOverflow | Source/IEDLCDE.py:358-363 | a 64x32 all-white image, too wide for the 128-byte buffer of screen 1, is accepted by the reload and leaves the screen blank, since white pixels are never written |
| Bitmap.ReloadImage | Source/IEDLCDE.py:79-88 | the reload with the start-up size check: accepted iff correctly sized; the result keeps the buffer length and unpacks to the new image |
| Bitmap.ReloadAgrees | Source/IEDLCDE.py:353-363 | on correctly sized images the corrected reload stores exactly what the reload as written stores |
| ColorConfig.Clamp | Source/IEDLCDE.py:109 | `max(0, min(v, 100))`: values in range unchanged, below 0 become 0, above 100 become 100 |
| ColorConfig.Flatten | Source/IEDLCDE.py:440-443 | file order is screen-major, channel-minor: value `3*i + ch` is channel `ch` of screen `i` |
| ColorConfig.GroupFlatten | Source/IEDLCDE.py:148 | grouping the 24 file values by three gives back the screens' colours |
| ColorConfig.LinesShape | Source/IEDLCDE.py:107-108 | the file's lines, newline kept, concatenate back to the text; only the last one may lack a newline, and none is empty |
| ColorConfig.CollectValues | Source/IEDLCDE.py:107-118 | all lines parsed iff no line was rejected; values are the clamped integers in order; otherwise the index of the first rejected line, with every earlier line accepted |
| ColorConfig.LoadColors | Source/IEDLCDE.py:104-132 | accepted iff every line is an integer and there are exactly 24; channels are the clamped values in file order; the first bad line is reported 1-based with its right-stripped text before the count is checked; a wrong count is reported only when every line parsed (the source's message gives no number; the count carried by `WrongCount` is the model's own addition) |
| ColorConfig.ReportsStrippedLine | Source/IEDLCDE.py:111-117 | a rejected line is reported without its trailing whitespace, Unicode whitespace included: "abc" and a no-break space is reported as "abc" at line 1 |
| ColorConfig.SaveColors | Source/IEDLCDE.py:436-443 | 24 lines; line `3*i + ch` is `str(channel ch of screen i) + "\n"` |
| ColorConfig.SavedLineParses | Source/IEDLCDE.py:441-443 | each saved line is read back by `int()` as the value written |
| ColorConfig.LinesOfTerminated | Source/IEDLCDE.py:107-108 | a text of newline-terminated lines without inner newlines is split back into exactly those lines |
| ColorConfig.SaveLoad | Source/IEDLCDE.py:104-111 | loading a saved colour file gives back every colour with each channel clamped to 0..100 |
| ColorConfig.LoadsAs | Source/IEDLCDE.py:104-132 | a file of 24 lines that all parse loads as the colours whose channels are the clamped line values |
| ColorConfig.SaveLoadInRange | Source/IEDLCDE.py:436-443 | colours already in 0..100 survive a save and a load unchanged |
| ColorConfig.DeviceValue | Source/IEDLCDE.py:277-279 | `int(655.35*p)` is the largest value whose hundredfold does not exceed `p*65535`, and it fits in 16 bits |
| ColorConfig.DeviceValueShape | Source/IEDLCDE.py:511-513 | scaling is monotonic and maps 0, 50 and 100 to 0, 32767 and 65535 |
| Text.DecimalLineRoundTrip | Source/IEDLCDE.py:441 | `int(str(v) + "\n") == v` for every integer the model formats (Python's 4300-digit limit is not modelled) |
| Text.Decimal | Source/IEDLCDE.py:441 | `str(v)`: at least one character, all ASCII digits for `v >= 0`, a `-` and digits otherwise |
| Text.Hex | Source/IEDLCDE.py:290-297 | `hex(n)`: `0x` and at least one lower-case hexadecimal digit; one digit below 16 |
| Text.ParseInt | Source/IEDLCDE.py:111 | `int(line)` succeeds only when, inside the whitespace `int()` skips, there is a non-empty text whose characters after the first are ASCII digits, the first being `-` for a negative value |
| Text.IntSkipsNoBreakSpace | Source/IEDLCDE.py:111 | `int()` skips a trailing no-break space: "5", a no-break space and a newline read as 5 |
| Text.IntRejectsSeparator | Source/IEDLCDE.py:111 | `int()` does not skip the ASCII separators 28..31: "5", U+001C and a newline is rejected |
| Text.HexRoundTrip | Source/IEDLCDE.py:292-297 | `hex(n)` is read back as `n` |
| Text.Digits | Source/IEDLCDE.py:276-297 | `str()` and `hex()` digits are at least one and have no leading zero |
| Text.DigitsUnique | Source/IEDLCDE.py:276-297 | a digit string without a leading zero is the printed form of its value, so each number has exactly one such spelling |
| Text.HexCanonical | Source/IEDLCDE.py:292-297 | only `hex(n)` itself is read back as `n` |
| Patcher.MarkerBytes | Source/IEDLCDE.py:469-503 | each marker is exactly 20 bytes, the size of the sliding window it is compared with |
| Patcher.MarkerLayout | Source/IEDLCDE.py:469-520 | the functions marker is eleven 0xFC, six 0xFF, three 0x00; the colours marker five 0xFC, six 0xFF, three 0x00, then 0x39 0xB9 0xEA 0xAA 0x8D 0x8D; the default marker is the ASCII text "Defaults to control." |
| Patcher.MarkerFacts | Source/IEDLCDE.py:463-520 | the three markers differ from each other and none starts with an ASCII digit |
| Patcher.Match | Source/IEDLCDE.py:469-521 | a match is an unhonoured marker equal to the window; no match means every unhonoured marker differs from it |
| Patcher.Scan | Source/IEDLCDE.py:463-531 | the events of the pass account for exactly the donor's bytes, in order |
| Patcher.ScanFiresOnce | Source/IEDLCDE.py:469-521 | the pass fires no marker already honoured when it starts and fires each marker at most once |
| Patcher.SpecFiresOnce | Source/IEDLCDE.py:469-521 | any trace meeting the event-by-event description fires no already honoured marker and no marker twice |
| Patcher.ScanFirst | Source/IEDLCDE.py:466-529 | one step: with no match the byte is copied; with a match it fires and skips `min(N, remaining)` bytes, and the scan goes on from the slid window with the marker honoured |
| Patcher.FiredOnlyByEvents | Source/IEDLCDE.py:474-521 | a marker counts as honoured only through a fire event of the trace |
| Patcher.ScanMeetsSpec | Source/IEDLCDE.py:463-531 | every event of the scan is the right reaction to its window (copy iff no unhonoured marker matches; a fire skips its full count unless the donor ends) |
| Patcher.SpecDeterminesScan | Source/IEDLCDE.py:463-531 | the event-by-event description admits only the scanner's trace |
| Patcher.EventOkShift | Source/IEDLCDE.py:467 | the window and flags after the first event are those the rest of the trace is judged by: skipped bytes never enter the window |
| Patcher.TraceSpecCons | Source/IEDLCDE.py:465-531 | a trace meets the description iff its first event does and the rest meets it from the state after that event |
| Patcher.CopyWhenAllFired | Source/IEDLCDE.py:528-529 | once all three markers are honoured, the rest of the donor is copied verbatim, repeated markers included |
| Patcher.NoEarlyFire | Source/IEDLCDE.py:463 | no marker fires before the twentieth scanned byte |
| Patcher.RenderLength | Source/IEDLCDE.py:476-527 | with sized payloads the output is as long as the consumed donor plus what end-of-file skips fell short |
| Patcher.ReadSite | Source/IEDLCDE.py:466-529 | each event's bytes are read where the earlier events stopped reading |
| Patcher.WriteSite | Source/IEDLCDE.py:466-529 | each event's bytes are written where the earlier events stopped writing |
| Patcher.PatchCopySite | Source/IEDLCDE.py:528-529 | a copied donor byte appears unchanged at its output position |
| Patcher.PatchFireSite | Source/IEDLCDE.py:476-526 | a fired marker's whole payload is written at its output position, in place of the completing byte |
| Patcher.DonorFireSite | Source/IEDLCDE.py:497-526 | a fire stands for its completing byte and the bytes skipped after it, at the donor position where the earlier events stopped reading |
| Patcher.AllFiredMeans | Source/IEDLCDE.py:533 | all three flags are set iff every marker has a fire event |
| Patcher.Outcome | Source/IEDLCDE.py:466-541 | the output is what the trace's events write; success iff every marker has a fire event in the trace |
| Patcher.Patch | Source/IEDLCDE.py:533-541 | success is reported iff all three markers were honoured by the pass; the output is produced either way |
| Patcher.PatchLength | Source/IEDLCDE.py:498-527 | the output is as long as the donor plus whatever an end-of-file skip failed to discard |
| Patcher.PatchPreservesLength | Source/IEDLCDE.py:476-527 | with sized payloads and every skip inside the donor, output length equals donor length |
| Patcher.SizedPayloadsByMarker | Source/IEDLCDE.py:476-527 | payloads of 898, 43 and 514 bytes each replace exactly the marker byte and the 897, 42 and 513 skipped bytes |
| Firmware.JoinAt | Source/IEDLCDE.py:477-497 | byte `k` of block `j` of equally sized blocks written in order sits at `n*j + k` |
| Firmware.FunctionsPayload | Source/IEDLCDE.py:476-497 | two zero bytes, then byte `k` of screen `n`'s buffer at `2 + 128*(n-1) + k` for screens 1..7; 898 bytes |
| Firmware.ColorsPayload | Source/IEDLCDE.py:507-516 | 0x8D first, 43 bytes in all |
| Firmware.Word | Source/IEDLCDE.py:510-516 | two bytes, the first the remainder and the second the quotient of the value by 256, so reading them low byte first gives the value back |
| Firmware.ColorsPayloadDecodes | Source/IEDLCDE.py:508-516 | reading the payload back low byte first gives each channel of screens 1..7 as its scaled value; screen 0 is not written |
| Firmware.DefaultPayload | Source/IEDLCDE.py:523-526 | `'.'`, 0x00, then screen 0's buffer; 514 bytes |
| Firmware.MakePayloads | Source/IEDLCDE.py:476-527 | with full-size buffers each payload is exactly as long as what it replaces |
| Firmware.SaveFirmware | Source/IEDLCDE.py:456-541 | the output length is the donor's plus any end-of-file shortfall; success iff all three markers were honoured |
| Preview.Encode | Source/IEDLCDE.py:267-298 | each command is one line ended by `\r`: exactly "lcdInit\r" for the clear, "lcdColor " or "lcdDisp " in front of the other two |
| Preview.WordsTokens | Source/IEDLCDE.py:276-279 | splitting a line of space-terminated words gives the words back |
| Preview.DecodeColor | Source/IEDLCDE.py:276-279 | the `lcdColor` line reads back as the three values sent |
| Preview.DecodeDisp | Source/IEDLCDE.py:291-298 | the `lcdDisp` line reads back as its plane, offset and bytes |
| Preview.DecodeEncode | Source/IEDLCDE.py:267-298 | every command's text reads back as that command, so different commands never share a line |
| Preview.DecimalCanonical | Source/IEDLCDE.py:276-279 | only `str(v)` itself is read back as `v` |
| Preview.TokensWords | Source/IEDLCDE.py:276-298 | the words a line splits into join back into that line |
| Preview.InterpretCanonical | Source/IEDLCDE.py:276-298 | the words a command is read from are exactly the words it is written as |
| Preview.EncodeDecode | Source/IEDLCDE.py:267-298 | a line is read as a command only if it is exactly that command's text, so each line written stands for one command and no other spelling does |
| Preview.Item | Source/IEDLCDE.py:294-297 | columns past the screen's width are sent as 0 |
| Preview.PreviewCommands | Source/IEDLCDE.py:304-313 | 34 commands: clear, the colour scaled to 0..65535, then 32 displays in segment-major, plane-minor order, each with 16 bytes at offset `16*segment` |
| Preview.PreviewLines | Source/IEDLCDE.py:267-302 | each of the 34 lines written decodes to the corresponding preview command, and (by `Preview.EncodeDecode`) is the only line that does |
| Preview.PreviewCoversScreen | Source/IEDLCDE.py:283-298 | column `x` of plane `z` is sent by the one display command for plane `z` whose columns include `x`, as the buffer byte, or as 0 past the screen's width |
| Preview.PreviewTargetsDistinct | Source/IEDLCDE.py:288-290 | no two display commands address the same plane and segment |
| Preview.NarrowScreenPadding | Source/IEDLCDE.py:286-297 | on screens 1..7, segments 2..7 carry only zeros |
| Session.LoadImages | Source/IEDLCDE.py:69-101 | accepted iff every screen is correctly sized; otherwise the first wrong screen is reported; accepted buffers have the device length and unpack to their images |
| Session.Startup | Source/IEDLCDE.py:64-132 | start-up succeeds iff every image is correctly sized and the colour file loads; images are checked before the colours; the state holds full-size buffers showing the images and in-range colours |
| Session.StartupPacks | Source/IEDLCDE.py:89-101 | the buffers start-up holds are exactly the packed images |
| Session.Save | Source/IEDLCDE.py:446-450 | the colour file written on save loads back as the editor's colours |
| Session.SaveRestart | Source/IEDLCDE.py:436-450 | restarting from the saved colour file and the same images restores the saved editor state |
| Session.RestartFrom | Source/IEDLCDE.py:64-132 | start-up from the images an editor's buffers pack and any colour file that loads as its colours gives back that editor |

## Left out

- The Tk window, widgets, layout, `mainloop` and the easygui dialogs. Every
  `exit(1)` path is an `Err` result instead.
- Serial port discovery, opening and closing, `ser.write` and the `sleep`
  pauses. Only the command text is modelled, as `Preview.PreviewLines`.
- PIL decoding and `convert("1")`. An image is a grid of booleans, where
  `true` means the pixel value is 0 (black). The preview photo pasted into the
  window is also left out.
- File reading and writing. The colour file is a string. The donor and the
  output firmware are byte sequences. A short `read(n)` at the end of the
  donor is modelled as skipping `min(n, remaining)` bytes.
- The failure to open an image in "Reload Image", which destroys the window.
- Bitmap.ReloadAsWritten: the IndexError is `None`. The partly rewritten
  buffer that the exception leaves behind is not modelled.
- `update_color`'s floating-point swatch colour (`pow(x, 1/4) * 80.638`), the
  percentage labels, and `default_all`'s table of colours. These are display
  only and never reach a file or the device.
- `reload_color`, and with it the colour half of `reload_all`. It re-reads the
  colour file without clamping and relies on the Tk slider to bound the value.
- The donor and output file names. As written, `left_side=True` selects
  `right_kiibohd.dfu.bin`.
- Floating point in `int(655.35 * p)`. `ColorConfig.DeviceValue` uses
  `p * 65535 div 100`. The two agree for every integer percentage 0..100, the
  only values the sliders hold.
- Text.ParseInt: Python `int()` is modelled as an optional sign and one or
  more ASCII digits, with the whitespace `int()` skips around them.
  Underscores and non-ASCII digits are not accepted, and Python's refusal of
  numerals longer than 4300 digits is not modelled.
- Text.Decimal: `str()` is unbounded. Python refuses to print an integer of
  more than 4300 digits; the editor only prints values 0..100 and 0..65535.
- ColorConfig.LinesShape: lines are split on "\n" only. Universal-newline
  translation of "\r" and "\r\n" is not modelled.
- Preview.Decode is not part of the editor. It stands for the keyboard's
  reading of a command line and serves as the inverse the encoder is checked
  against. It reads numbers only in the form `str()` and `hex()` print
  them, without leading zeros, so that it is an exact inverse.

## Findings

| source | as written | input that shows it | evidently intended | confidence | as-written member | corrected member |
|---|---|---|---|---|---|---|
| Source/IEDLCDE.py:345-363 | "Reload Image" packs the newly read image with its own width and performs none of the start-up size checks | a 16x32 all-black image for screen 1: the reload accepts it and packs with a stride of 16, so the device's top-left pixel stays blank though it is black in the image; start-up would refuse the same file | the reload applies the start-up check (32 rows high, 128 or 32 wide) before replacing the buffer | not executed | Bitmap.ReloadAcceptsWrongSize | Bitmap.ReloadImage |

=== FILE: base.dfy ===
/** Shared vocabulary: bytes, optional values and results, and the bit-level
    view of a byte that the LCD pixel packing relies on. */
module Base {

  /** One octet of a firmware image or of a packed pixel buffer. */
  type byte = b: int | 0 <= b < 256

  datatype Option<+T> = None | Some(value: T)

  /** An operation that either yields a value or reports why it did not. */
  datatype Result<+T, +E> = Ok(value: T) | Err(error: E)

  function Min(a: int, b: int): int {
    if a <= b then a else b
  }

  function Pow2(n: nat): (r: nat)
    ensures r >= 1
  {
    if n == 0 then 1 else 2 * Pow2(n - 1)
  }

  /** Bit `z` of `b`, counting from the least significant bit: `b & (1 << z) != 0`. */
  predicate Bit(b: nat, z: nat) {
    if z == 0 then b % 2 == 1 else Bit(b / 2, z - 1)
  }

  /** The number whose bit `z` is `bits[z]`: the value left by starting from 0
      and OR-ing in `1 << z` for every `z` with `bits[z]` set. */
  function FromBits(bits: seq<bool>): (r: nat)
    ensures r < Pow2(|bits|)
  {
    if |bits| == 0 then 0 else (if bits[0] then 1 else 0) + 2 * FromBits(bits[1..])
  }

  /** The `n` low bits of `b`, least significant first. */
  function ToBits(b: nat, n: nat): (bits: seq<bool>)
    ensures |bits| == n
  {
    if n == 0 then [] else [b % 2 == 1] + ToBits(b / 2, n - 1)
  }

  /** `FromBits` sets exactly the requested bits. */
  lemma {:induction false} FromBitsBit(bits: seq<bool>, z: nat)
    requires z < |bits|
    ensures Bit(FromBits(bits), z) == bits[z]
  {
    if z > 0 {
      FromBitsBit(bits[1..], z - 1);
      assert FromBits(bits) / 2 == FromBits(bits[1..]);
    }
  }

  /** Reading the bits of a number back reproduces them. */
  lemma {:induction false} ToBitsBit(b: nat, n: nat, z: nat)
    requires z < n
    ensures ToBits(b, n)[z] == Bit(b, z)
  {
    if z > 0 {
      ToBitsBit(b / 2, n - 1, z - 1);
    }
  }

  /** A number below `2^n` is rebuilt from its `n` low bits. */
  lemma {:induction false} FromToBits(b: nat, n: nat)
    requires b < Pow2(n)
    ensures FromBits(ToBits(b, n)) == b
  {
    if n > 0 {
      FromToBits(b / 2, n - 1);
      assert ToBits(b, n)[1..] == ToBits(b / 2, n - 1);
    }
  }

  /** Zero has no bit set. */
  lemma {:induction false} NoBitOfZero(z: nat)
    ensures !Bit(0, z)
  {
    if z > 0 {
      NoBitOfZero(z - 1);
    }
  }

  /** A byte is zero exactly when none of its eight bits is set. */
  lemma ByteZeroIff(b: byte)
    ensures b == 0 <==> forall z :: 0 <= z < 8 ==> !Bit(b, z)
  {
    forall z | 0 <= z < 8
      ensures !Bit(0, z)
    {
      NoBitOfZero(z);
    }
    if b == 0 {
      assert forall z :: 0 <= z < 8 ==> !Bit(b, z);
    } else {
      if forall z :: 0 <= z < 8 ==> !Bit(b, z) {
        assert forall z :: 0 <= z < 8 ==> Bit(b, z) == Bit(0, z);
        ByteFromBits(b, 0);
      }
      assert exists z :: 0 <= z < 8 && Bit(b, z);
    }
  }

  /** Two bytes with the same eight bits are the same byte. */
  lemma ByteFromBits(a: byte, b: byte)
    requires forall z :: 0 <= z < 8 ==> Bit(a, z) == Bit(b, z)
    ensures a == b
  {
    assert Pow2(8) == 256;
    forall z | 0 <= z < 8
      ensures ToBits(a, 8)[z] == ToBits(b, 8)[z]
    {
      ToBitsBit(a, 8, z);
      ToBitsBit(b, 8, z);
    }
    assert ToBits(a, 8) == ToBits(b, 8);
    FromToBits(a, 8);
    FromToBits(b, 8);
  }
}

=== FILE: bitmap.dfy ===
/** The LCD bitmap packer.  Each of the eight screens shows a black-and-white
    image 32 rows high: screen 0 is 128 columns wide, screens 1..7 are 32.
    The device wants the image as four planes of eight rows; the byte for
    plane `p` and column `x` sits at index `p * width + x`, and its bit `z`
    is the pixel in row `(3 - p) * 8 + 7 - z` (so plane 0 holds the bottom
    eight rows, and the lowest bit of each byte the lowest row of its plane). */
module Bitmap {
  import opened Base

  /** A decoded image after conversion to one bit per pixel:
      `black[y][x]` holds when the pixel at column `x`, row `y` is 0 (black). */
  datatype Image = Image(width: nat, height: nat, black: seq<seq<bool>>) {
    predicate Valid() {
      |black| == height && forall y :: 0 <= y < height ==> |black[y]| == width
    }
  }

  /** The size complaint: which screen, the size it needs, the size it got. */
  datatype SizeError = WrongSize(screen: nat, expectedWidth: nat, expectedHeight: nat, width: nat, height: nat)

  const Height: nat := 32

  /** Width screen `n` requires: `128 - 96 * min(1, n)`. */
  function ScreenWidth(n: nat): (w: nat)
    requires n < 8
    ensures n == 0 ==> w == 128
    ensures n > 0 ==> w == 32
  {
    128 - 96 * Min(1, n)
  }

  function Zeros(n: nat): (s: seq<byte>)
    ensures |s| == n && forall i :: 0 <= i < n ==> s[i] == 0
  {
    seq(n, _ => 0)
  }

  // ---------------------------------------------------------------------
  // Row <-> (plane, bit) correspondence

  /** The image row stored in bit `z` of plane `p`. */
  function Row(p: nat, z: nat): (y: nat)
    requires p < 4 && z < 8
    ensures y < Height
  {
    (3 - p) * 8 + 7 - z
  }

  function PlaneOf(y: nat): (p: nat)
    requires y < Height
    ensures p < 4
  {
    3 - y / 8
  }

  function BitOf(y: nat): (z: nat)
    requires y < Height
    ensures z < 8
  {
    7 - y % 8
  }

  /** Every row has exactly one (plane, bit) slot and every slot one row. */
  lemma RowBijection()
    ensures forall y :: 0 <= y < Height ==> Row(PlaneOf(y), BitOf(y)) == y
    ensures forall p, z :: 0 <= p < 4 && 0 <= z < 8 ==> PlaneOf(Row(p, z)) == p && BitOf(Row(p, z)) == z
  {
  }

  // ---------------------------------------------------------------------
  // Buffer layout

  /** The plane and column that buffer index `i` names. */
  function Locate(i: nat, w: nat): (px: (nat, nat))
    requires i < 4 * w
    ensures px.0 < 4 && px.1 < w && i == px.0 * w + px.1
  {
    if i < w then (0, i)
    else if i < 2 * w then (1, i - w)
    else if i < 3 * w then (2, i - 2 * w)
    else (3, i - 3 * w)
  }

  /** The byte of plane `p`, column `x` of a buffer `w` columns wide. */
  function At(buf: seq<byte>, w: nat, p: nat, x: nat): byte
    requires |buf| == 4 * w && p < 4 && x < w
  {
    buf[p * w + x]
  }

  /** The eight pixels of column `x` in plane `p`, packed as one byte. */
  function ColumnByte(img: Image, p: nat, x: nat): (b: byte)
    requires img.Valid() && img.height >= Height && p < 4 && x < img.width
  {
    assert Pow2(8) == 256;
    FromBits(seq(8, z requires 0 <= z < 8 => img.black[Row(p, z)][x]))
  }

  lemma ColumnByteBits(img: Image, p: nat, x: nat, z: nat)
    requires img.Valid() && img.height >= Height && p < 4 && x < img.width && z < 8
    ensures Bit(ColumnByte(img, p, x), z) == img.black[Row(p, z)][x]
  {
    FromBitsBit(seq(8, z requires 0 <= z < 8 => img.black[Row(p, z)][x]), z);
  }

  /** The `w` bytes of plane `p`, column by column. */
  function Plane(img: Image, p: nat): (bytes: seq<byte>)
    requires img.Valid() && img.height >= Height && p < 4
    ensures |bytes| == img.width
  {
    seq(img.width, x requires 0 <= x < img.width => ColumnByte(img, p, x))
  }

  /** Packs an image into its LCD buffer (the loops over `p`, `z`, `x` that
      OR `1 << z` into a zeroed buffer). */
  function Pack(img: Image): (buf: seq<byte>)
    requires img.Valid() && img.height >= Height
    ensures |buf| == 4 * img.width
    ensures forall p, x, z :: 0 <= p < 4 && 0 <= x < img.width && 0 <= z < 8 ==>
              Bit(At(buf, img.width, p, x), z) == img.black[Row(p, z)][x]
  {
    var w := img.width;
    var buf := Plane(img, 0) + Plane(img, 1) + Plane(img, 2) + Plane(img, 3);
    forall p, x, z | 0 <= p < 4 && 0 <= x < w && 0 <= z < 8
      ensures Bit(At(buf, w, p, x), z) == img.black[Row(p, z)][x]
    {
      assert At(buf, w, p, x) == Plane(img, p)[x];
      ColumnByteBits(img, p, x, z);
    }
    buf
  }

  /** The image a buffer shows: the inverse of `Pack`. */
  function Unpack(buf: seq<byte>, w: nat): (black: seq<seq<bool>>)
    requires |buf| == 4 * w
    ensures |black| == Height && forall y :: 0 <= y < Height ==> |black[y]| == w
  {
    seq(Height, y requires 0 <= y < Height =>
      seq(w, x requires 0 <= x < w => Bit(At(buf, w, PlaneOf(y), x), BitOf(y))))
  }

  /** Unpacking a packed image gives back every pixel. */
  lemma UnpackPack(img: Image)
    requires img.Valid() && img.height == Height
    ensures Unpack(Pack(img), img.width) == img.black
  {
    var black := Unpack(Pack(img), img.width);
    forall y | 0 <= y < Height
      ensures black[y] == img.black[y]
    {
      RowBijection();
      assert Row(PlaneOf(y), BitOf(y)) == y;
    }
  }

  lemma PackUnpackAt(buf: seq<byte>, w: nat, p: nat, x: nat, z: nat)
    requires |buf| == 4 * w && p < 4 && x < w && z < 8
    ensures Bit(At(Pack(Image(w, Height, Unpack(buf, w))), w, p, x), z) == Bit(At(buf, w, p, x), z)
  {
    var img := Image(w, Height, Unpack(buf, w));
    var y := Row(p, z);
    RowBijection();
    assert img.black[y][x] == Bit(At(buf, w, PlaneOf(y), x), BitOf(y));
  }

  /** Every buffer of the right length is the packing of the image it shows,
      so packing is a bijection between 32-row images and buffers. */
  lemma PackUnpack(buf: seq<byte>, w: nat)
    requires |buf| == 4 * w
    ensures Pack(Image(w, Height, Unpack(buf, w))) == buf
  {
    var packed := Pack(Image(w, Height, Unpack(buf, w)));
    forall p, x, z | 0 <= p < 4 && 0 <= x < w && 0 <= z < 8
      ensures Bit(At(packed, w, p, x), z) == Bit(At(buf, w, p, x), z)
    {
      PackUnpackAt(buf, w, p, x, z);
    }
    SameBitsSame(packed, buf, w);
  }

  /** Two buffers that agree on every pixel bit are equal. */
  lemma SameBitsSame(a: seq<byte>, b: seq<byte>, w: nat)
    requires |a| == 4 * w && |b| == 4 * w
    requires forall p, x, z :: 0 <= p < 4 && 0 <= x < w && 0 <= z < 8 ==>
               Bit(At(a, w, p, x), z) == Bit(At(b, w, p, x), z)
    ensures a == b
  {
    forall i | 0 <= i < 4 * w
      ensures a[i] == b[i]
    {
      var (p, x) := Locate(i, w);
      assert At(a, w, p, x) == a[i] && At(b, w, p, x) == b[i];
      forall z | 0 <= z < 8
        ensures Bit(a[i], z) == Bit(b[i], z)
      {
        assert Bit(At(a, w, p, x), z) == Bit(At(b, w, p, x), z);
      }
      ByteFromBits(a[i], b[i]);
    }
  }

  // ---------------------------------------------------------------------
  // Loading

  predicate SizeOk(n: nat, img: Image)
    requires n < 8
  {
    img.width == ScreenWidth(n) && img.height == Height
  }

  /** Start-up loading of screen `n`: the size check, then packing. */
  function LoadImage(n: nat, img: Image): (r: Result<seq<byte>, SizeError>)
    requires n < 8 && img.Valid()
    ensures r.Ok? <==> img.height == 32 && img.width == (if n == 0 then 128 else 32)
    ensures r.Ok? ==> |r.value| == 4 * img.width && Unpack(r.value, img.width) == img.black
    ensures r.Err? ==> r.error == WrongSize(n, if n == 0 then 128 else 32, 32, img.width, img.height)
  {
    if !SizeOk(n, img) then
      Err(WrongSize(n, ScreenWidth(n), Height, img.width, img.height))
    else
      UnpackPack(img);
      Ok(Pack(img))
  }

  /** Some pixel of `img` is black and its buffer index `p * w + x` lies at
      or beyond `n`. */
  predicate BlackBeyond(img: Image, n: nat)
    requires img.Valid() && img.height >= Height
  {
    exists p, x, z :: 0 <= p < 4 && 0 <= x < img.width && 0 <= z < 8 &&
      p * img.width + x >= n && img.black[Row(p, z)][x]
  }

  /** A packed byte at index `n` or later is non-zero exactly when a black
      pixel is stored at or beyond `n`. */
  lemma SpillsIff(img: Image, n: nat)
    requires img.Valid() && img.height >= Height
    ensures (exists i :: n <= i < |Pack(img)| && Pack(img)[i] != 0) <==> BlackBeyond(img, n)
  {
    var w := img.width;
    var packed := Pack(img);
    if i :| n <= i < |packed| && packed[i] != 0 {
      var (p, x) := Locate(i, w);
      assert At(packed, w, p, x) == packed[i];
      ByteZeroIff(packed[i]);
      var z :| 0 <= z < 8 && Bit(packed[i], z);
      assert img.black[Row(p, z)][x];
    }
    if BlackBeyond(img, n) {
      var p, x, z :| 0 <= p < 4 && 0 <= x < w && 0 <= z < 8 &&
        p * w + x >= n && img.black[Row(p, z)][x];
      IndexInBuffer(p, x, w);
      NoBitOfZero(z);
      assert packed[p * w + x] != 0;
    }
  }

  /** Index `p * w + x` of a plane and column lies inside the `4 * w` bytes. */
  lemma IndexInBuffer(p: nat, x: nat, w: nat)
    requires p < 4 && x < w
    ensures p * w + x < 4 * w
  {
  }

  /** An image that fits the buffer lands at `p * w + x`, followed by zeros. */
  lemma ReloadFits(prev: seq<byte>, img: Image)
    requires img.Valid() && img.height >= Height && 4 * img.width <= |prev|
    ensures var buf := Pack(img) + Zeros(|prev| - 4 * img.width);
            forall p, x, z :: 0 <= p < 4 && 0 <= x < img.width && 0 <= z < 8 ==>
              Bit(buf[p * img.width + x], z) == img.black[Row(p, z)][x]
  {
    var w := img.width;
    var buf := Pack(img) + Zeros(|prev| - 4 * w);
    forall p, x, z | 0 <= p < 4 && 0 <= x < w && 0 <= z < 8
      ensures Bit(buf[p * w + x], z) == img.black[Row(p, z)][x]
    {
      IndexInBuffer(p, x, w);
      assert buf[p * w + x] == At(Pack(img), w, p, x);
    }
  }

  /** An image wider than the buffer keeps its first `|prev|` packed bytes. */
  lemma ReloadCut(prev: seq<byte>, img: Image)
    requires img.Valid() && img.height >= Height && |prev| < 4 * img.width
    ensures var buf := Pack(img)[..|prev|];
            forall p, x, z :: 0 <= p < 4 && 0 <= x < img.width && 0 <= z < 8 && p * img.width + x < |prev| ==>
              Bit(buf[p * img.width + x], z) == img.black[Row(p, z)][x]
  {
    var w := img.width;
    var buf := Pack(img)[..|prev|];
    forall p, x, z | 0 <= p < 4 && 0 <= x < w && 0 <= z < 8 && p * w + x < |prev|
      ensures Bit(buf[p * w + x], z) == img.black[Row(p, z)][x]
    {
      assert buf[p * w + x] == At(Pack(img), w, p, x);
    }
  }

  /** The "Reload Image" button as written: the prev buffer keeps its length
      and is cleared, then the new image is packed with its own width and no
      size check, OR-ing a bit in only for black pixels.  `None` stands for
      the IndexError raised when a row falls outside the image (the image has
      columns but fewer than 32 rows) or when a black pixel's buffer index
      falls outside the buffer; white pixels past the end are never written,
      so a too-wide image whose overflowing columns are white is accepted. */
  function ReloadAsWritten(prev: seq<byte>, img: Image): (r: Option<seq<byte>>)
    requires img.Valid()
    ensures r.None? <==>
              (img.width > 0 &&
               (img.height < Height ||
                exists p, x, z :: 0 <= p < 4 && 0 <= x < img.width && 0 <= z < 8 &&
                  p * img.width + x >= |prev| && img.black[Row(p, z)][x]))
    ensures r.Some? ==> |r.value| == |prev|
    ensures r.Some? ==> forall i :: 4 * img.width <= i < |prev| ==> r.value[i] == 0
    ensures r.Some? && img.width > 0 ==>
              forall p, x, z :: 0 <= p < 4 && 0 <= x < img.width && 0 <= z < 8 && p * img.width + x < |prev| ==>
                Bit(r.value[p * img.width + x], z) == img.black[Row(p, z)][x]
  {
    if img.width == 0 then Some(Zeros(|prev|))
    else if img.height < Height then None
    else
      var w := img.width;
      var packed := Pack(img);
      SpillsIff(img, |prev|);
      if 4 * w <= |prev| then
        ReloadFits(prev, img);
        Some(packed + Zeros(|prev| - 4 * w))
      else if exists i :: |prev| <= i < |packed| && packed[i] != 0 then None
      else
        ReloadCut(prev, img);
        Some(packed[..|prev|])
  }

  /** The reload as written accepts an image start-up would reject: a 16x32
      all-black image for 32-wide screen 1 is packed with a stride of 16, so
      the device's top-left pixel, black in the image, stays blank. */
  lemma ReloadAcceptsWrongSize()
    ensures var img := Image(16, 32, seq(32, _ => seq(16, _ => true)));
            && ReloadAsWritten(Zeros(128), img).Some?
            && LoadImage(1, img).Err?
            && img.black[0][0]
            && !Unpack(ReloadAsWritten(Zeros(128), img).value, 32)[0][0]
  {
    var img := Image(16, 32, seq(32, _ => seq(16, _ => true)));
    var buf := ReloadAsWritten(Zeros(128), img).value;
    assert PlaneOf(0) == 3 && BitOf(0) == 7;
    assert buf[96] == 0;
    assert At(buf, 32, 3, 0) == 0;
    NoBitOfZero(7);
  }

  /** White pixels are never written, so a 64x32 all-white image reloaded
      into the 128-byte buffer of a 32-wide screen raises nothing even though
      its packing would need 256 bytes; the screen comes out blank. */
  lemma ReloadAcceptsWhiteOverflow()
    ensures var img := Image(64, 32, seq(32, _ => seq(64, _ => false)));
            ReloadAsWritten(Zeros(128), img) == Some(Zeros(128))
  {
    var img := Image(64, 32, seq(32, _ => seq(64, _ => false)));
    assert forall y, x :: 0 <= y < 32 && 0 <= x < 64 ==> !img.black[y][x];
    var buf := ReloadAsWritten(Zeros(128), img).value;
    forall i | 0 <= i < 128
      ensures buf[i] == 0
    {
      var (p, x) := Locate(i, 64);
      forall z | 0 <= z < 8
        ensures !Bit(buf[i], z)
      {
        assert !Bit(buf[p * 64 + x], z);
      }
      ByteZeroIff(buf[i]);
    }
    assert buf == Zeros(128);
  }

  /** The reload with the start-up size check in front: a wrongly sized
      image is refused and the prev buffer is replaced only by a correctly
      sized image, with no bit of the prev contents surviving. */
  function ReloadImage(n: nat, prev: seq<byte>, img: Image): (r: Result<seq<byte>, SizeError>)
    requires n < 8 && img.Valid() && |prev| == 4 * ScreenWidth(n)
    ensures r.Ok? <==> img.height == 32 && img.width == (if n == 0 then 128 else 32)
    ensures r.Ok? ==> |r.value| == |prev| && Unpack(r.value, img.width) == img.black
    ensures r.Err? ==> r.error == WrongSize(n, if n == 0 then 128 else 32, 32, img.width, img.height)
  {
    LoadImage(n, img)
  }

  /** Where the image has the right size the corrected reload stores exactly
      what the reload as written stores. */
  lemma ReloadAgrees(n: nat, prev: seq<byte>, img: Image)
    requires n < 8 && img.Valid() && |prev| == 4 * ScreenWidth(n) && SizeOk(n, img)
    ensures ReloadAsWritten(prev, img) == Some(ReloadImage(n, prev, img).value)
  {
    assert Zeros(|prev| - 4 * img.width) == [];
    assert Pack(img) + [] == Pack(img);
    assert ReloadAsWritten(prev, img) == Some(Pack(img) + Zeros(|prev| - 4 * img.width));
    assert ReloadImage(n, prev, img) == LoadImage(n, img) == Ok(Pack(img));
  }
}

=== FILE: colors.dfy ===
/** The colour settings: three channel percentages (red, green, blue) per
    screen, persisted as a text file of 24 integers, one per line, screen by
    screen and red, green, blue within a screen.  The device takes each
    percentage scaled to 0..65535. */
module ColorConfig {
  import opened Base
  import opened Text

  /** One screen's backlight setting, in percent per channel. */
  datatype Rgb = Rgb(r: int, g: int, b: int)

  /** Why a colour file was refused. */
  datatype ConfigError =
    | InvalidColor(lineNumber: nat, text: string)   // first line `int()` rejects, 1-based, right-stripped
    | WrongCount(count: nat)                         // every line parsed, but not 24 of them

  const Screens: nat := 8
  const ValueCount: nat := 24

  function Channel(c: Rgb, ch: nat): int
    requires ch < 3
  {
    if ch == 0 then c.r else if ch == 1 then c.g else c.b
  }

  predicate InRange(c: Rgb) {
    0 <= c.r <= 100 && 0 <= c.g <= 100 && 0 <= c.b <= 100
  }

  /** `max(0, min(v, 100))`. */
  function Clamp(v: int): (r: int)
    ensures 0 <= r <= 100
    ensures 0 <= v <= 100 ==> r == v
    ensures v < 0 ==> r == 0
    ensures v > 100 ==> r == 100
  {
    if v < 0 then 0 else if v > 100 then 100 else v
  }

  function ClampRgb(c: Rgb): (d: Rgb)
    ensures InRange(d)
  {
    Rgb(Clamp(c.r), Clamp(c.g), Clamp(c.b))
  }

  // ---------------------------------------------------------------------
  // Screen-major, channel-minor order

  /** The 24 values in file order. */
  function Flatten(cs: seq<Rgb>): (vs: seq<int>)
    ensures |vs| == 3 * |cs|
    ensures forall i, ch :: 0 <= i < |cs| && 0 <= ch < 3 ==> vs[3 * i + ch] == Channel(cs[i], ch)
  {
    if |cs| == 0 then []
    else
      var rest := Flatten(cs[1..]);
      var vs := [cs[0].r, cs[0].g, cs[0].b] + rest;
      assert forall i, ch :: 1 <= i < |cs| && 0 <= ch < 3 ==> Channel(cs[1..][i - 1], ch) == Channel(cs[i], ch);
      vs
  }

  /** Values in file order, three at a time, as per-screen settings. */
  function Group(vs: seq<int>): (cs: seq<Rgb>)
    requires |vs| % 3 == 0
    ensures 3 * |cs| == |vs|
    ensures forall i, ch :: 0 <= i < |cs| && 0 <= ch < 3 ==> Channel(cs[i], ch) == vs[3 * i + ch]
  {
    seq(|vs| / 3, i requires 0 <= i < |vs| / 3 => Rgb(vs[3 * i], vs[3 * i + 1], vs[3 * i + 2]))
  }

  lemma GroupFlatten(cs: seq<Rgb>)
    ensures Group(Flatten(cs)) == cs
  {
    var gs := Group(Flatten(cs));
    forall i | 0 <= i < |cs|
      ensures gs[i] == cs[i]
    {
      assert Channel(gs[i], 0) == Channel(cs[i], 0);
      assert Channel(gs[i], 1) == Channel(cs[i], 1);
      assert Channel(gs[i], 2) == Channel(cs[i], 2);
    }
  }

  // ---------------------------------------------------------------------
  // Lines of a text file

  /** Length of the first line, its "\n" included when there is one. */
  function LineLength(text: string): (n: nat)
    requires |text| > 0
    ensures 1 <= n <= |text|
    ensures forall i :: 0 <= i < n - 1 ==> text[i] != '\n'
    ensures text[n - 1] == '\n' || n == |text|
  {
    if text[0] == '\n' || |text| == 1 then 1 else 1 + LineLength(text[1..])
  }

  function Concat(lines: seq<string>): string {
    if |lines| == 0 then [] else lines[0] + Concat(lines[1..])
  }

  /** The lines a Python text file yields when iterated: each keeps its "\n",
      the last one may lack it, and no empty line follows a final "\n". */
  function Lines(text: string): (lines: seq<string>)
    ensures Concat(lines) == text
    decreases |text|
  {
    if |text| == 0 then []
    else
      var n := LineLength(text);
      var rest := Lines(text[n..]);
      assert text == text[..n] + text[n..];
      [text[..n]] + rest
  }

  /** Every line is non-empty, holds a "\n" only as its last character, and
      all lines but the last end with one. */
  lemma {:induction false} LinesShape(text: string)
    ensures forall k :: 0 <= k < |Lines(text)| ==> |Lines(text)[k]| > 0
    ensures forall k :: 0 <= k < |Lines(text)| ==> NoNewline(Lines(text)[k][..|Lines(text)[k]| - 1])
    ensures forall k :: 0 <= k < |Lines(text)| - 1 ==> Lines(text)[k][|Lines(text)[k]| - 1] == '\n'
    decreases |text|
  {
    if |text| > 0 {
      var n := LineLength(text);
      var lines, rest := Lines(text), Lines(text[n..]);
      assert lines == [text[..n]] + rest;
      LinesShape(text[n..]);
      assert NoNewline(text[..n][..n - 1]);
      assert forall k :: 1 <= k < |lines| ==> lines[k] == rest[k - 1];
    }
  }

  predicate NoNewline(s: string) {
    forall i :: 0 <= i < |s| ==> s[i] != '\n'
  }

  /** Each string followed by a newline. */
  function Terminate(ss: seq<string>): (ls: seq<string>)
    ensures |ls| == |ss| && forall k :: 0 <= k < |ss| ==> ls[k] == ss[k] + "\n"
  {
    if |ss| == 0 then [] else [ss[0] + "\n"] + Terminate(ss[1..])
  }

  /** A text made of newline-terminated lines is split back into exactly them. */
  lemma {:induction false} LinesOfTerminated(ss: seq<string>)
    requires forall k :: 0 <= k < |ss| ==> NoNewline(ss[k])
    ensures Lines(Concat(Terminate(ss))) == Terminate(ss)
  {
    if |ss| > 0 {
      var ls := Terminate(ss);
      var tail := Terminate(ss[1..]);
      assert ls == [ss[0] + "\n"] + tail;
      LinesOfTerminated(ss[1..]);
      var text := Concat(ls);
      assert text == ls[0] + Concat(tail);
      assert LineLength(text) == |ls[0]| by {
        FirstLine(ss[0], Concat(tail));
      }
      assert text[..|ls[0]|] == ls[0];
      assert text[|ls[0]|..] == Concat(tail);
    }
  }

  lemma {:induction false} FirstLine(s: string, rest: string)
    requires NoNewline(s)
    ensures LineLength(s + "\n" + rest) == |s| + 1
  {
    if |s| > 0 {
      assert (s + "\n" + rest)[1..] == s[1..] + "\n" + rest;
      FirstLine(s[1..], rest);
    }
  }

  // ---------------------------------------------------------------------
  // Loading and saving

  /** The loop over the lines, given what `int()` made of each: the clamped
      values, or the 0-based index of the first line `int()` rejected. */
  function CollectValues(parsed: seq<Option<int>>): (r: Result<seq<int>, nat>)
    ensures r.Ok? <==> forall k :: 0 <= k < |parsed| ==> parsed[k].Some?
    ensures r.Ok? ==> |r.value| == |parsed|
    ensures r.Ok? ==> forall k :: 0 <= k < |parsed| ==> r.value[k] == Clamp(parsed[k].value)
    ensures r.Err? ==> r.error < |parsed| && parsed[r.error].None?
    ensures r.Err? ==> forall k :: 0 <= k < r.error ==> parsed[k].Some?
  {
    if |parsed| == 0 then Ok([])
    else match parsed[0]
      case None => Err(0)
      case Some(v) =>
        match CollectValues(parsed[1..])
        case Ok(vs) => Ok([Clamp(v)] + vs)
        case Err(k) => Err(k + 1)
  }

  /** The 24 collected values, grouped by screen, are in-range colours whose
      channels are the clamped parsed values. */
  lemma GroupCollected(parsed: seq<Option<int>>, vs: seq<int>)
    requires CollectValues(parsed) == Ok(vs) && |vs| == ValueCount
    ensures |Group(vs)| == 8
    ensures forall i, ch :: 0 <= i < 8 && 0 <= ch < 3 ==> Channel(Group(vs)[i], ch) == Clamp(parsed[3 * i + ch].value)
    ensures forall i :: 0 <= i < 8 ==> InRange(Group(vs)[i])
  {
    var cs := Group(vs);
    forall i | 0 <= i < 8
      ensures InRange(cs[i])
    {
      assert Channel(cs[i], 0) == vs[3 * i];
      assert Channel(cs[i], 1) == vs[3 * i + 1];
      assert Channel(cs[i], 2) == vs[3 * i + 2];
    }
  }

  /** What `int()` makes of each line of the file. */
  function Parsed(text: string): (parsed: seq<Option<int>>)
    ensures |parsed| == |Lines(text)|
  {
    var lines := Lines(text);
    seq(|lines|, k requires 0 <= k < |lines| => ParseInt(lines[k]))
  }

  /** Reading the colour file at start-up: the first line `int()` rejects
      is reported before the number of lines is looked at. */
  function LoadColors(text: string): (r: Result<seq<Rgb>, ConfigError>)
    ensures r.Ok? <==> |Lines(text)| == 24 && forall k :: 0 <= k < |Parsed(text)| ==> Parsed(text)[k].Some?
    ensures r.Ok? ==> |r.value| == 8 && forall i :: 0 <= i < 8 ==> InRange(r.value[i])
    ensures r.Ok? ==> forall i, ch :: 0 <= i < 8 && 0 <= ch < 3 ==>
              Channel(r.value[i], ch) == Clamp(Parsed(text)[3 * i + ch].value)
    ensures r.Err? && r.error.InvalidColor? ==>
              var k := r.error.lineNumber - 1;
              && 0 <= k < |Lines(text)|
              && Parsed(text)[k].None?
              && r.error.text == StripRight(Lines(text)[k])
              && forall j :: 0 <= j < k ==> Parsed(text)[j].Some?
    ensures r.Err? && r.error.WrongCount? ==>
              && r.error.count == |Lines(text)| != 24
              && forall k :: 0 <= k < |Parsed(text)| ==> Parsed(text)[k].Some?
  {
    var lines := Lines(text);
    var parsed := Parsed(text);
    match CollectValues(parsed)
    case Err(k) => Err(InvalidColor(k + 1, StripRight(lines[k])))
    case Ok(vs) =>
      if |vs| != ValueCount then Err(WrongCount(|vs|))
      else
        GroupCollected(parsed, vs);
        Ok(Group(vs))
  }

  /** A line ending in a no-break space and a newline is one line. */
  lemma NbspLine(text: string)
    requires text == "abc\U{00A0}\n"
    ensures Lines(text) == [text]
  {
    assert LineLength(text) == 5;
    assert text[5..] == [] && text[..5] == text;
    assert Lines(text) == [text[..5]] + Lines(text[5..]);
  }

  /** `rstrip()` and `int()` both discard the no-break space. */
  lemma NbspStrip(text: string)
    requires text == "abc\U{00A0}\n"
    ensures StripRight(text) == "abc" && ParseInt(text) == None
  {
    var t4, t3 := text[..4], text[..3];
    assert t4[..3] == t3 && t3 == "abc";
    assert StripRight(t3) == t3;
    assert StripRight(t4) == StripRight(t3);
    assert StripRight(text) == StripRight(t4);
    assert IntStripRight(text) == t3 by {
      assert IntStripRight(t3) == t3;
      assert IntStripRight(t4) == IntStripRight(t3);
    }
    assert IntStripLeft(t3) == t3;
    assert !AllDigits(t3) by {
      assert !IsDigit(t3[0]);
    }
  }

  /** A rejected line is reported without its trailing whitespace, Unicode
      whitespace included: "abc" followed by a no-break space is reported as
      "abc" at line 1. */
  lemma ReportsStrippedLine()
    ensures LoadColors("abc\U{00A0}\n") == Err(InvalidColor(1, "abc"))
  {
    var text := "abc\U{00A0}\n";
    NbspLine(text);
    NbspStrip(text);
    var parsed := Parsed(text);
    assert parsed == [None];
    assert CollectValues(parsed) == Err(0);
  }

  /** `str(v)` of each value. */
  function Decimals(vs: seq<int>): (ds: seq<string>)
    ensures |ds| == |vs| && forall k :: 0 <= k < |vs| ==> ds[k] == Decimal(vs[k])
  {
    if |vs| == 0 then [] else [Decimal(vs[0])] + Decimals(vs[1..])
  }

  /** The file text `save_colors` writes: `str(value) + "\n"` per value. */
  function SaveText(vs: seq<int>): (text: string)
    ensures Lines(text) == Terminate(Decimals(vs))
  {
    var ds := Decimals(vs);
    assert forall k :: 0 <= k < |ds| ==> NoNewline(ds[k]);
    LinesOfTerminated(ds);
    Concat(Terminate(ds))
  }

  /** `save_colors`: 24 lines, screen 0..7, channel red, green, blue. */
  function SaveColors(cs: seq<Rgb>): (text: string)
    requires |cs| == Screens
    ensures |Lines(text)| == 24
    ensures forall i, ch :: 0 <= i < 8 && 0 <= ch < 3 ==>
              Lines(text)[3 * i + ch] == Decimal(Channel(cs[i], ch)) + "\n"
  {
    SaveText(Flatten(cs))
  }

  lemma SavedLineParses(cs: seq<Rgb>, i: nat, ch: nat)
    requires |cs| == Screens && i < 8 && ch < 3
    ensures Parsed(SaveColors(cs))[3 * i + ch] == Some(Channel(cs[i], ch))
  {
    var text := SaveColors(cs);
    var v := Channel(cs[i], ch);
    var line := Lines(text)[3 * i + ch];
    assert line == Decimal(v) + "\n";
    DecimalLineRoundTrip(v);
    assert ParseInt(line) == Some(v);
    assert Parsed(text)[3 * i + ch] == ParseInt(line);
  }

  lemma SavedLinesParse(cs: seq<Rgb>)
    requires |cs| == Screens
    ensures |Lines(SaveColors(cs))| == 24
    ensures forall k :: 0 <= k < |Parsed(SaveColors(cs))| ==> Parsed(SaveColors(cs))[k].Some?
  {
    var parsed := Parsed(SaveColors(cs));
    forall k | 0 <= k < |parsed|
      ensures parsed[k].Some?
    {
      var i, ch := k / 3, k % 3;
      assert k == 3 * i + ch;
      SavedLineParses(cs, i, ch);
    }
  }

  /** Every setting clamped to 0..100. */
  function ClampAll(cs: seq<Rgb>): (ds: seq<Rgb>)
    ensures |ds| == |cs| && forall i :: 0 <= i < |cs| ==> ds[i] == ClampRgb(cs[i])
  {
    if |cs| == 0 then [] else [ClampRgb(cs[0])] + ClampAll(cs[1..])
  }

  /** Clamping settings already in 0..100 changes nothing. */
  lemma ClampAllInRange(cs: seq<Rgb>)
    requires forall i :: 0 <= i < |cs| ==> InRange(cs[i])
    ensures ClampAll(cs) == cs
  {
    var ds := ClampAll(cs);
    forall i | 0 <= i < |cs|
      ensures ds[i] == cs[i]
    {
      assert ClampRgb(cs[i]) == cs[i];
    }
  }

  /** A file of 24 lines that all parse loads as the colours whose channels
      are the clamped parsed values. */
  lemma LoadsAs(text: string, ds: seq<Rgb>)
    requires |ds| == Screens && |Lines(text)| == 24
    requires forall k :: 0 <= k < |Parsed(text)| ==> Parsed(text)[k].Some?
    requires forall i, ch :: 0 <= i < 8 && 0 <= ch < 3 ==> Clamp(Parsed(text)[3 * i + ch].value) == Channel(ds[i], ch)
    ensures LoadColors(text) == Ok(ds)
  {
    var r := LoadColors(text);
    assert r.Ok?;
    forall i | 0 <= i < 8
      ensures r.value[i] == ds[i]
    {
      assert Channel(r.value[i], 0) == Channel(ds[i], 0);
      assert Channel(r.value[i], 1) == Channel(ds[i], 1);
      assert Channel(r.value[i], 2) == Channel(ds[i], 2);
    }
    assert r.value == ds;
  }

  /** Loading what was saved gives back every setting, clamped to 0..100. */
  lemma SaveLoad(cs: seq<Rgb>)
    requires |cs| == Screens
    ensures LoadColors(SaveColors(cs)) == Ok(ClampAll(cs))
  {
    SavedLinesParse(cs);
    SavedChannels(cs);
    LoadsAs(SaveColors(cs), ClampAll(cs));
  }

  lemma SavedChannels(cs: seq<Rgb>)
    requires |cs| == Screens
    ensures forall k :: 0 <= k < |Parsed(SaveColors(cs))| ==> Parsed(SaveColors(cs))[k].Some?
    ensures forall i, ch :: 0 <= i < 8 && 0 <= ch < 3 ==>
              Clamp(Parsed(SaveColors(cs))[3 * i + ch].value) == Channel(ClampAll(cs)[i], ch)
  {
    SavedLinesParse(cs);
    var parsed, ds := Parsed(SaveColors(cs)), ClampAll(cs);
    forall i, ch | 0 <= i < 8 && 0 <= ch < 3
      ensures Clamp(parsed[3 * i + ch].value) == Channel(ds[i], ch)
    {
      SavedLineParses(cs, i, ch);
    }
  }

  /** Settings already in 0..100 survive a save and a load unchanged. */
  lemma SaveLoadInRange(cs: seq<Rgb>)
    requires |cs| == Screens && forall i :: 0 <= i < 8 ==> InRange(cs[i])
    ensures LoadColors(SaveColors(cs)) == Ok(cs)
  {
    SaveLoad(cs);
    ClampAllInRange(cs);
  }

  // ---------------------------------------------------------------------
  // Device scaling

  /** `int(655.35 * p)` for a percentage 0..100, in exact arithmetic: the
      largest value whose hundredfold does not exceed `p * 65535`. */
  function DeviceValue(p: int): (v: nat)
    requires 0 <= p <= 100
    ensures v <= 65535
    ensures v * 100 <= p * 65535 < v * 100 + 100
  {
    p * 65535 / 100
  }

  /** Scaling is monotonic and spans the whole 16-bit range. */
  lemma DeviceValueShape(p: int, q: int)
    requires 0 <= p <= q <= 100
    ensures DeviceValue(p) <= DeviceValue(q)
    ensures DeviceValue(0) == 0 && DeviceValue(50) == 32767 && DeviceValue(100) == 65535
  {
    assert DeviceValue(p) * 100 <= p * 65535 <= q * 65535 < DeviceValue(q) * 100 + 100;
  }
}

=== FILE: firmware.dfy ===
/** What `save_to_file` writes in place of each marker, built from the
    editor's packed screen buffers and colour percentages, and the whole
    save as one patching pass over the donor image. */
module Firmware {
  import opened Base
  import Bitmap
  import ColorConfig
  import Patcher

  /** The packed buffers of the eight screens: 512 bytes for screen 0,
      128 for each of screens 1..7. */
  predicate BuffersOk(bufs: seq<seq<byte>>) {
    |bufs| == 8 && forall n :: 0 <= n < 8 ==> |bufs[n]| == 4 * Bitmap.ScreenWidth(n)
  }

  /** The eight colour settings as the sliders hold them, 0..100 per channel. */
  predicate ColorsOk(cs: seq<ColorConfig.Rgb>) {
    |cs| == 8 && forall i :: 0 <= i < 8 ==> ColorConfig.InRange(cs[i])
  }

  // ---------------------------------------------------------------------
  // Joining fixed-size blocks

  /** The blocks of `bs` one after another. */
  function Join(bs: seq<seq<byte>>): seq<byte> {
    if |bs| == 0 then [] else bs[0] + Join(bs[1..])
  }

  /** When every block is `n` bytes long, byte `k` of block `j` sits at
      `n * j + k` of the joined sequence. */
  lemma {:induction false} JoinAt(bs: seq<seq<byte>>, n: nat, j: nat, k: nat)
    requires forall i :: 0 <= i < |bs| ==> |bs[i]| == n
    requires j < |bs| && k < n
    ensures |Join(bs)| == n * |bs|
    ensures n * j + k < |Join(bs)| && Join(bs)[n * j + k] == bs[j][k]
  {
    if j == 0 {
      JoinLength(bs, n);
    } else {
      JoinAt(bs[1..], n, j - 1, k);
      assert n * j == n * (j - 1) + n;
      JoinLength(bs, n);
    }
  }

  lemma {:induction false} JoinLength(bs: seq<seq<byte>>, n: nat)
    requires forall i :: 0 <= i < |bs| ==> |bs[i]| == n
    ensures |Join(bs)| == n * |bs|
  {
    if |bs| > 0 {
      JoinLength(bs[1..], n);
      assert n * |bs| == n * (|bs| - 1) + n;
    }
  }

  // ---------------------------------------------------------------------
  // The three payloads

  /** Two zero bytes, then the buffers of screens 1..7 in order. */
  function FunctionsPayload(bufs: seq<seq<byte>>): (r: seq<byte>)
    requires BuffersOk(bufs)
    ensures |r| == 1 + Patcher.SkipCount(Patcher.Functions)
    ensures r[0] == 0 && r[1] == 0
    ensures forall n, k :: 1 <= n < 8 && 0 <= k < 128 ==> r[2 + 128 * (n - 1) + k] == bufs[n][k]
  {
    var screens := bufs[1..];
    ScreensLayout(screens);
    [0, 0] + Join(screens)
  }

  lemma ScreensLayout(screens: seq<seq<byte>>)
    requires |screens| == 7 && forall i :: 0 <= i < 7 ==> |screens[i]| == 128
    ensures |Join(screens)| == 896
    ensures forall j, k :: 0 <= j < 7 && 0 <= k < 128 ==> Join(screens)[128 * j + k] == screens[j][k]
  {
    JoinLength(screens, 128);
    forall j, k | 0 <= j < 7 && 0 <= k < 128
      ensures Join(screens)[128 * j + k] == screens[j][k]
    {
      JoinAt(screens, 128, j, k);
    }
  }

  /** A device value as two bytes, low byte first (the `hi`, `lo` of the
      `divmod` call are the remainder and the quotient, written in that
      order). */
  function Word(v: nat): (r: seq<byte>)
    requires v <= 65535
    ensures |r| == 2 && r[0] as int + 256 * (r[1] as int) == v
  {
    assert v / 256 < 256 by {
      assert v < 256 * 256;
    }
    [v % 256, v / 256]
  }

  /** The six bytes of one screen's colour: red, green, blue device values. */
  function ColorWords(c: ColorConfig.Rgb): (r: seq<byte>)
    requires ColorConfig.InRange(c)
    ensures |r| == 6
  {
    Word(ColorConfig.DeviceValue(c.r)) + Word(ColorConfig.DeviceValue(c.g)) + Word(ColorConfig.DeviceValue(c.b))
  }

  /** 0x8D, then the colours of screens 1..7; screen 0's colour is never
      written to the firmware. */
  function ColorsPayload(cs: seq<ColorConfig.Rgb>): (r: seq<byte>)
    requires ColorsOk(cs)
    ensures |r| == 1 + Patcher.SkipCount(Patcher.Colors)
    ensures r[0] == 0x8D
  {
    var blocks := seq(7, i requires 0 <= i < 7 => ColorWords(cs[i + 1]));
    JoinLength(blocks, 6);
    [0x8D] + Join(blocks)
  }

  /** The value stored little-endian at `i`, `i + 1`. */
  function ReadWord(s: seq<byte>, i: nat): nat
    requires i + 1 < |s|
  {
    s[i] as int + 256 * s[i + 1] as int
  }

  /** Reading the colour payload back: channel `ch` of screen `col` (1..7)
      is the scaled percentage, stored little-endian. */
  lemma ColorsPayloadDecodes(cs: seq<ColorConfig.Rgb>, col: nat, ch: nat)
    requires ColorsOk(cs) && 1 <= col < 8 && ch < 3
    ensures var r := ColorsPayload(cs);
            var i := 1 + 6 * (col - 1) + 2 * ch;
            i + 1 < |r| && ReadWord(r, i) == ColorConfig.DeviceValue(ColorConfig.Channel(cs[col], ch))
  {
    var blocks := seq(7, i requires 0 <= i < 7 => ColorWords(cs[i + 1]));
    var r := ColorsPayload(cs);
    var v := ColorConfig.DeviceValue(ColorConfig.Channel(cs[col], ch));
    JoinAt(blocks, 6, col - 1, 2 * ch);
    JoinAt(blocks, 6, col - 1, 2 * ch + 1);
    var w := ColorWords(cs[col]);
    assert w[2 * ch] == v % 256 && w[2 * ch + 1] == v / 256;
  }

  /** `'.'` and a zero byte, then screen 0's buffer. */
  function DefaultPayload(bufs: seq<seq<byte>>): (r: seq<byte>)
    requires BuffersOk(bufs)
    ensures |r| == 1 + Patcher.SkipCount(Patcher.Default)
    ensures r[0] == 46 && r[1] == 0 && r[2..] == bufs[0]
  {
    [46, 0] + bufs[0]
  }

  function MakePayloads(bufs: seq<seq<byte>>, cs: seq<ColorConfig.Rgb>): (p: Patcher.Payloads)
    requires BuffersOk(bufs) && ColorsOk(cs)
    ensures Patcher.SizedPayloads(p)
  {
    var p := Patcher.Payloads(FunctionsPayload(bufs), ColorsPayload(cs), DefaultPayload(bufs));
    Patcher.SizedPayloadsByMarker(p);
    p
  }

  /** Saving a firmware image: the patching pass with the editor's payloads.
      The output is as long as the donor plus whatever a skip cut short by
      the end of the donor failed to discard (nothing, for a donor that
      holds every placeholder in full), and success is reported exactly
      when all three markers were honoured. */
  function SaveFirmware(donor: seq<byte>, bufs: seq<seq<byte>>, cs: seq<ColorConfig.Rgb>): (r: Patcher.PatchResult)
    requires BuffersOk(bufs) && ColorsOk(cs)
    ensures var t := Patcher.Scan(donor, Patcher.Start());
            && |r.output| == |donor| + Patcher.Shortfall(t)
            && (r.complete <==> Patcher.AllHonoured(t))
  {
    var p := MakePayloads(bufs, cs);
    Patcher.PatchLength(donor, p);
    Patcher.Patch(donor, p)
  }
}

=== FILE: patcher.dfy ===
/** The firmware patcher behind "Save LEFT/RIGHT.dfu.bin": one forward pass
    over a donor firmware image that copies it byte by byte, except where
    the last twenty scanned bytes spell one of three markers.  The byte that
    completes a marker is replaced by that marker's payload, and a fixed
    number of the following donor bytes are discarded unscanned.  Each marker
    is honoured at most once.

    The pass is modelled as a scanner producing a trace of events: a byte
    copied, or a marker fired together with the bytes it discarded.  The
    output is what the events write; the donor is what they consume. */
module Patcher {
  import opened Base

  // ---------------------------------------------------------------------
  // Markers

  datatype Marker = Functions | Colors | Default

  const AllMarkers: set<Marker> := {Functions, Colors, Default}

  const WindowSize: nat := 20

  predicate IsAsciiDigit(b: byte) {
    0x30 <= b <= 0x39
  }

  /** The state before anything is scanned: no marker honoured yet. */
  function Start(): (st: ScanState)
    ensures st.window == InitialWindow() && st.fired == {}
  {
    ScanState(InitialWindow(), {})
  }

  /** The window before anything is scanned: ASCII "12345678901234567890". */
  function InitialWindow(): (w: seq<byte>)
    ensures |w| == WindowSize && forall i :: 0 <= i < |w| ==> IsAsciiDigit(w[i])
  {
    [0x31, 0x32, 0x33, 0x34, 0x35, 0x36, 0x37, 0x38, 0x39, 0x30,
     0x31, 0x32, 0x33, 0x34, 0x35, 0x36, 0x37, 0x38, 0x39, 0x30]
  }

  /** The literal bytes each marker is recognised by; the default marker is
      ASCII "Defaults to control.". */
  function MarkerBytes(m: Marker): (s: seq<byte>)
    ensures |s| == WindowSize
  {
    match m
    case Functions =>
      [0xFC, 0xFC, 0xFC, 0xFC, 0xFC, 0xFC, 0xFC, 0xFC, 0xFC, 0xFC,
       0xFC, 0xFF, 0xFF, 0xFF, 0xFF, 0xFF, 0xFF, 0x00, 0x00, 0x00]
    case Colors =>
      [0xFC, 0xFC, 0xFC, 0xFC, 0xFC, 0xFF, 0xFF, 0xFF, 0xFF, 0xFF,
       0xFF, 0x00, 0x00, 0x00, 0x39, 0xB9, 0xEA, 0xAA, 0x8D, 0x8D]
    case Default =>
      [0x44, 0x65, 0x66, 0x61, 0x75, 0x6C, 0x74, 0x73, 0x20, 0x74,
       0x6F, 0x20, 0x63, 0x6F, 0x6E, 0x74, 0x72, 0x6F, 0x6C, 0x2E]
  }

  /** How many donor bytes follow each marker as placeholder to be discarded. */
  function SkipCount(m: Marker): nat {
    match m
    case Functions => 897
    case Colors => 42
    case Default => 513
  }

  /** The shape of each marker: the functions marker is eleven 0xFC, six
      0xFF and three 0x00; the colours marker five 0xFC, six 0xFF, three 0x00
      and six further bytes; the default marker is the ASCII text
      "Defaults to control.". */
  lemma MarkerLayout(m: Marker)
    ensures var s := MarkerBytes(m);
            m.Functions? ==> forall i :: 0 <= i < |s| ==>
              s[i] == (if i < 11 then 0xFC else if i < 17 then 0xFF else 0x00)
    ensures var s := MarkerBytes(m);
            m.Colors? ==>
              && (forall i :: 0 <= i < 14 ==> s[i] == (if i < 5 then 0xFC else if i < 11 then 0xFF else 0x00))
              && s[14..] == [0x39, 0xB9, 0xEA, 0xAA, 0x8D, 0x8D]
    ensures var s := MarkerBytes(m);
            m.Default? ==> forall i :: 0 <= i < |s| ==> s[i] == "Defaults to control."[i] as int
  {
  }

  /** The markers are pairwise different and none begins with an ASCII
      digit, so no marker can overlap the initial window. */
  lemma MarkerFacts()
    ensures forall m, m' :: m != m' ==> MarkerBytes(m) != MarkerBytes(m')
    ensures forall m :: !IsAsciiDigit(MarkerBytes(m)[0])
  {
    assert MarkerBytes(Functions)[5] != MarkerBytes(Colors)[5];
    assert MarkerBytes(Functions)[0] != MarkerBytes(Default)[0];
    assert MarkerBytes(Colors)[0] != MarkerBytes(Default)[0];
    assert MarkerBytes(Default)[0] == 68;
  }

  // ---------------------------------------------------------------------
  // Scanner state

  /** The last twenty scanned bytes and the markers already honoured. */
  datatype ScanState = ScanState(window: seq<byte>, fired: set<Marker>)

  /** `(window + byte)[1:]`. */
  function Slide(window: seq<byte>, b: byte): (w: seq<byte>)
    ensures |window| > 0 ==> |w| == |window| && w[|w| - 1] == b
  {
    (window + [b])[1..]
  }

  /** The window after sliding in every byte of `s`. */
  function SlideAll(window: seq<byte>, s: seq<byte>): seq<byte> {
    (window + s)[|s|..]
  }

  lemma SlideAllCons(window: seq<byte>, b: byte, s: seq<byte>)
    ensures SlideAll(window, [b] + s) == SlideAll(Slide(window, b), s)
  {
    assert window + ([b] + s) == (window + [b]) + s;
  }

  /** The first marker, in the order functions, colours, default, that is
      not yet honoured and that the window spells. */
  function Match(window: seq<byte>, fired: set<Marker>): (r: Option<Marker>)
    ensures r.Some? ==> r.value !in fired && window == MarkerBytes(r.value)
    ensures r.None? ==> forall m :: m !in fired ==> window != MarkerBytes(m)
  {
    if Functions !in fired && window == MarkerBytes(Functions) then Some(Functions)
    else if Colors !in fired && window == MarkerBytes(Colors) then Some(Colors)
    else if Default !in fired && window == MarkerBytes(Default) then Some(Default)
    else None
  }

  // ---------------------------------------------------------------------
  // Events and traces

  /** `Copy(b)`: byte `b` was scanned and written.  `Fire(m, b, skipped)`:
      scanning `b` completed marker `m`; `b` was not written, the payload
      was, and `skipped` was read past without being scanned. */
  datatype Event = Copy(b: byte) | Fire(marker: Marker, b: byte, skipped: seq<byte>)

  /** Donor bytes an event accounts for. */
  function Input(e: Event): seq<byte> {
    match e
    case Copy(b) => [b]
    case Fire(_, b, skipped) => [b] + skipped
  }

  function Consumed(t: seq<Event>): (s: seq<byte>)
    ensures |s| >= |t|
  {
    if |t| == 0 then [] else Input(t[0]) + Consumed(t[1..])
  }

  /** Bytes that went through the window: everything but the skipped ones. */
  function Scanned(t: seq<Event>): (s: seq<byte>)
    ensures |s| == |t|
  {
    if |t| == 0 then [] else [t[0].b] + Scanned(t[1..])
  }

  /** Markers a trace honours. */
  function Fired(t: seq<Event>): set<Marker> {
    if |t| == 0 then {}
    else (if t[0].Fire? then {t[0].marker} else {}) + Fired(t[1..])
  }

  /** Every fire in a trace honours its marker. */
  lemma {:induction false} FiredByEvent(t: seq<Event>, i: nat)
    requires i < |t| && t[i].Fire?
    ensures t[i].marker in Fired(t)
  {
    if i > 0 {
      assert t[1..][i - 1] == t[i];
      FiredByEvent(t[1..], i - 1);
    }
  }

  /** A marker counts as honoured only through one of the trace's events. */
  lemma {:induction false} FiredOnlyByEvents(t: seq<Event>, m: Marker)
    requires m in Fired(t)
    ensures exists i :: 0 <= i < |t| && t[i].Fire? && t[i].marker == m
  {
    if !(t[0].Fire? && t[0].marker == m) {
      FiredOnlyByEvents(t[1..], m);
      var j :| 0 <= j < |t| - 1 && t[1..][j].Fire? && t[1..][j].marker == m;
      assert t[j + 1] == t[1..][j];
    }
  }

  lemma AppendLaws(a: seq<Event>, c: seq<Event>)
    ensures Consumed(a + c) == Consumed(a) + Consumed(c)
    ensures Scanned(a + c) == Scanned(a) + Scanned(c)
    ensures Fired(a + c) == Fired(a) + Fired(c)
  {
    ConsumedAppend(a, c);
    ScannedAppend(a, c);
    FiredAppend(a, c);
  }

  lemma {:induction false} ConsumedAppend(a: seq<Event>, c: seq<Event>)
    ensures Consumed(a + c) == Consumed(a) + Consumed(c)
  {
    if |a| == 0 {
      assert a + c == c;
    } else {
      assert (a + c)[0] == a[0];
      assert (a + c)[1..] == a[1..] + c;
      ConsumedAppend(a[1..], c);
    }
  }

  lemma {:induction false} ScannedAppend(a: seq<Event>, c: seq<Event>)
    ensures Scanned(a + c) == Scanned(a) + Scanned(c)
  {
    if |a| == 0 {
      assert a + c == c;
    } else {
      assert (a + c)[0] == a[0];
      assert (a + c)[1..] == a[1..] + c;
      ScannedAppend(a[1..], c);
    }
  }

  lemma {:induction false} FiredAppend(a: seq<Event>, c: seq<Event>)
    ensures Fired(a + c) == Fired(a) + Fired(c)
  {
    if |a| == 0 {
      assert a + c == c;
    } else {
      assert (a + c)[0] == a[0];
      assert (a + c)[1..] == a[1..] + c;
      FiredAppend(a[1..], c);
    }
  }

  /** The state after one event. */
  function Next(st: ScanState, e: Event): ScanState {
    ScanState(Slide(st.window, e.b), st.fired + (if e.Fire? then {e.marker} else {}))
  }

  // ---------------------------------------------------------------------
  // The scanner

  /** The scan loop of `save_to_file`: read one byte, slide it into the
      window, test the markers, and either write the byte or write the
      payload and discard up to `SkipCount` further bytes (fewer at the end
      of the donor, as a short read does). */
  function Scan(donor: seq<byte>, st: ScanState): (t: seq<Event>)
    ensures Consumed(t) == donor
    decreases |donor|
  {
    if |donor| == 0 then []
    else
      var b := donor[0];
      var w := Slide(st.window, b);
      match Match(w, st.fired)
      case None =>
        var rest := Scan(donor[1..], ScanState(w, st.fired));
        assert ([Copy(b)] + rest)[1..] == rest;
        assert donor == [b] + donor[1..];
        [Copy(b)] + rest
      case Some(m) =>
        var n := Min(SkipCount(m), |donor| - 1);
        var rest := Scan(donor[1 + n..], ScanState(w, st.fired + {m}));
        assert ([Fire(m, b, donor[1..1 + n])] + rest)[1..] == rest;
        assert donor[..1 + n] == [b] + donor[1..1 + n];
        assert donor == donor[..1 + n] + donor[1 + n..];
        [Fire(m, b, donor[1..1 + n])] + rest
  }

  // ---------------------------------------------------------------------
  // What a trace must look like, event by event

  /** Event `i` is the right reaction to the window after scanning its byte,
      given every byte scanned and every marker honoured before it. */
  predicate EventOk(t: seq<Event>, i: nat, st: ScanState)
    requires i < |t|
  {
    var w := SlideAll(st.window, Scanned(t[..i]) + [t[i].b]);
    var fired := st.fired + Fired(t[..i]);
    match t[i]
    case Copy(_) => forall m :: m !in fired ==> w != MarkerBytes(m)
    case Fire(m, _, skipped) =>
      && m !in fired
      && w == MarkerBytes(m)
      && |skipped| <= SkipCount(m)
      && (|skipped| == SkipCount(m) || i == |t| - 1)
  }

  /** The declarative description of a scan from state `st`. */
  predicate TraceSpec(t: seq<Event>, st: ScanState) {
    forall i :: 0 <= i < |t| ==> EventOk(t, i, st)
  }

  /** Event `i + 1` of a trace is judged from the state after its first
      event exactly as event `i` of the rest is. */
  lemma EventOkShift(t: seq<Event>, i: nat, st: ScanState)
    requires i + 1 < |t|
    ensures EventOk(t, i + 1, st) <==> EventOk(t[1..], i, Next(st, t[0]))
  {
    var e := t[0];
    var rest := t[1..];
    assert t[..i + 1] == [e] + rest[..i];
    AppendLaws([e], rest[..i]);
    assert Scanned([e]) == [e.b];
    assert Scanned(t[..i + 1]) + [t[i + 1].b] == [e.b] + (Scanned(rest[..i]) + [rest[i].b]);
    SlideAllCons(st.window, e.b, Scanned(rest[..i]) + [rest[i].b]);
    assert Fired([e]) == (if e.Fire? then {e.marker} else {});
  }

  lemma EventOkFirst(t: seq<Event>, st: ScanState)
    requires |t| > 0
    ensures EventOk(t, 0, st) <==>
      match t[0]
      case Copy(_) => Match(Slide(st.window, t[0].b), st.fired).None?
      case Fire(m, _, skipped) =>
        && Match(Slide(st.window, t[0].b), st.fired) == Some(m)
        && |skipped| <= SkipCount(m)
        && (|skipped| == SkipCount(m) || |t| == 1)
  {
    assert t[..0] == [];
    assert SlideAll(st.window, [t[0].b]) == Slide(st.window, t[0].b);
    MarkerFacts();
  }

  /** One step of the scanner, unfolded. */
  lemma ScanFirst(donor: seq<byte>, st: ScanState)
    requires |donor| > 0
    ensures var t := Scan(donor, st);
            var w := Slide(st.window, donor[0]);
            && |t| > 0
            && (Match(w, st.fired).None? ==>
                  t[0] == Copy(donor[0]) && t[1..] == Scan(donor[1..], Next(st, t[0])))
            && (Match(w, st.fired).Some? ==>
                  var m := Match(w, st.fired).value;
                  var n := Min(SkipCount(m), |donor| - 1);
                  t[0] == Fire(m, donor[0], donor[1..1 + n]) && t[1..] == Scan(donor[1 + n..], Next(st, t[0])))
  {
    var t := Scan(donor, st);
    var b := donor[0];
    var w := Slide(st.window, b);
    match Match(w, st.fired)
    case None =>
      var rest := Scan(donor[1..], ScanState(w, st.fired));
      assert t == [Copy(b)] + rest;
      assert Next(st, Copy(b)) == ScanState(w, st.fired + {});
      assert st.fired + {} == st.fired;
    case Some(m) =>
      var n := Min(SkipCount(m), |donor| - 1);
      var rest := Scan(donor[1 + n..], ScanState(w, st.fired + {m}));
      assert t == [Fire(m, b, donor[1..1 + n])] + rest;
      assert Next(st, Fire(m, b, donor[1..1 + n])) == ScanState(w, st.fired + {m});
  }

  /** The scanner meets the description. */
  lemma {:induction false} ScanMeetsSpec(donor: seq<byte>, st: ScanState)
    ensures TraceSpec(Scan(donor, st), st)
    decreases |donor|
  {
    var t := Scan(donor, st);
    if |donor| > 0 {
      ScanFirst(donor, st);
      var next := Next(st, t[0]);
      var n := if t[0].Fire? then |t[0].skipped| else 0;
      assert t[1..] == Scan(donor[1 + n..], next);
      ScanMeetsSpec(donor[1 + n..], next);
      EventOkFirst(t, st);
      TraceSpecCons(t, st);
    }
  }

  /** A trace meets the description exactly when its first event does and
      the rest meets it from the state after that event. */
  lemma TraceSpecCons(t: seq<Event>, st: ScanState)
    requires |t| > 0
    ensures TraceSpec(t, st) <==> EventOk(t, 0, st) && TraceSpec(t[1..], Next(st, t[0]))
  {
    var next := Next(st, t[0]);
    if EventOk(t, 0, st) && TraceSpec(t[1..], next) {
      forall i | 1 <= i < |t|
        ensures EventOk(t, i, st)
      {
        assert EventOk(t[1..], i - 1, next);
        EventOkShift(t, i - 1, st);
      }
    }
    if TraceSpec(t, st) {
      forall i | 0 <= i < |t| - 1
        ensures EventOk(t[1..], i, next)
      {
        assert EventOk(t, i + 1, st);
        EventOkShift(t, i, st);
      }
    }
  }

  /** The description admits one trace only: any trace that meets it and
      accounts for the whole donor is the scanner's. */
  lemma {:induction false} SpecDeterminesScan(t: seq<Event>, donor: seq<byte>, st: ScanState)
    requires TraceSpec(t, st) && Consumed(t) == donor
    ensures t == Scan(donor, st)
    decreases |donor|
  {
    if |t| > 0 {
      var e := t[0];
      var rest := t[1..];
      var next := Next(st, e);
      assert donor == Input(e) + Consumed(rest);
      assert donor[0] == e.b;
      EventOkFirst(t, st);
      assert EventOk(t, 0, st);
      ScanFirst(donor, st);
      var s := Scan(donor, st);
      var n := if e.Fire? then |e.skipped| else 0;
      if e.Fire? {
        assert Min(SkipCount(e.marker), |donor| - 1) == n by {
          if |rest| == 0 {
            assert Consumed(rest) == [];
          }
        }
        assert e.skipped == donor[1..1 + n];
      }
      assert s[0] == e;
      assert Consumed(rest) == donor[1 + n..];
      assert s[1..] == Scan(donor[1 + n..], next);
      TraceSpecCons(t, st);
      SpecDeterminesScan(rest, Consumed(rest), next);
      assert s == [s[0]] + s[1..];
    }
  }

  /** A trace that meets the description fires no marker that was already
      honoured when it started, and fires each marker at most once. */
  lemma SpecFiresOnce(t: seq<Event>, st: ScanState)
    requires TraceSpec(t, st)
    ensures forall i :: 0 <= i < |t| && t[i].Fire? ==> t[i].marker !in st.fired
    ensures forall i, j :: 0 <= i < j < |t| && t[i].Fire? && t[j].Fire? ==> t[i].marker != t[j].marker
  {
    forall i | 0 <= i < |t| && t[i].Fire?
      ensures t[i].marker !in st.fired
    {
      assert EventOk(t, i, st);
    }
    forall i, j | 0 <= i < j < |t| && t[i].Fire? && t[j].Fire?
      ensures t[i].marker != t[j].marker
    {
      assert EventOk(t, j, st);
      assert t[..j][i] == t[i];
      FiredByEvent(t[..j], i);
    }
  }

  /** The scan fires no marker that was already honoured when it started,
      and fires each marker at most once. */
  lemma ScanFiresOnce(donor: seq<byte>, st: ScanState)
    ensures var t := Scan(donor, st);
            forall i :: 0 <= i < |t| && t[i].Fire? ==> t[i].marker !in st.fired
    ensures var t := Scan(donor, st);
            forall i, j :: 0 <= i < j < |t| && t[i].Fire? && t[j].Fire? ==> t[i].marker != t[j].marker
  {
    ScanMeetsSpec(donor, st);
    SpecFiresOnce(Scan(donor, st), st);
  }

  // ---------------------------------------------------------------------
  // Rendering

  /** What gets written in place of each marker. */
  datatype Payloads = Payloads(functions: seq<byte>, colors: seq<byte>, default: seq<byte>)

  function PayloadFor(p: Payloads, m: Marker): seq<byte> {
    match m
    case Functions => p.functions
    case Colors => p.colors
    case Default => p.default
  }

  /** Bytes an event writes. */
  function Output(e: Event, p: Payloads): seq<byte> {
    match e
    case Copy(b) => [b]
    case Fire(m, _, _) => PayloadFor(p, m)
  }

  function Render(t: seq<Event>, p: Payloads): seq<byte> {
    if |t| == 0 then [] else Output(t[0], p) + Render(t[1..], p)
  }

  /** Every payload is exactly as long as the marker byte and the bytes it
      replaces. */
  predicate SizedPayloads(p: Payloads) {
    forall m :: |PayloadFor(p, m)| == 1 + SkipCount(m)
  }

  lemma SizedPayloadsByMarker(p: Payloads)
    requires |p.functions| == 1 + SkipCount(Functions)
    requires |p.colors| == 1 + SkipCount(Colors)
    requires |p.default| == 1 + SkipCount(Default)
    ensures SizedPayloads(p)
  {
    forall m
      ensures |PayloadFor(p, m)| == 1 + SkipCount(m)
    {
      match m
      case Functions =>
      case Colors =>
      case Default =>
    }
  }

  /** Bytes a trace's skips fell short of their full count. */
  function Shortfall(t: seq<Event>): nat {
    if |t| == 0 then 0
    else (if t[0].Fire? && |t[0].skipped| < SkipCount(t[0].marker)
          then SkipCount(t[0].marker) - |t[0].skipped| else 0) + Shortfall(t[1..])
  }

  /** The output is as long as the donor, plus whatever a skip cut short by
      the end of the donor failed to discard. */
  lemma {:induction false} RenderLength(t: seq<Event>, p: Payloads)
    requires SizedPayloads(p)
    requires forall i :: 0 <= i < |t| && t[i].Fire? ==> |t[i].skipped| <= SkipCount(t[i].marker)
    ensures |Render(t, p)| == |Consumed(t)| + Shortfall(t)
  {
    if |t| > 0 {
      assert forall i :: 0 <= i < |t| - 1 ==> t[1..][i] == t[i + 1];
      RenderLength(t[1..], p);
      if t[0].Fire? {
        assert |PayloadFor(p, t[0].marker)| == 1 + SkipCount(t[0].marker);
      }
    }
  }

  lemma {:induction false} RenderAppend(a: seq<Event>, c: seq<Event>, p: Payloads)
    ensures Render(a + c, p) == Render(a, p) + Render(c, p)
  {
    if |a| == 0 {
      assert a + c == c;
    } else {
      assert (a + c)[0] == a[0];
      assert (a + c)[1..] == a[1..] + c;
      RenderAppend(a[1..], c, p);
    }
  }

  /** Event `i` reads its bytes where the events before it stopped reading. */
  lemma ConsumedAt(t: seq<Event>, i: nat)
    requires i < |t|
    ensures Consumed(t) == Consumed(t[..i]) + (Input(t[i]) + Consumed(t[i + 1..]))
  {
    SplitAt(t, i);
    ConsumedAppend(t[..i], [t[i]] + t[i + 1..]);
    ConsumedCons(t[i], t[i + 1..]);
  }

  lemma SplitAt(t: seq<Event>, i: nat)
    requires i < |t|
    ensures t == t[..i] + ([t[i]] + t[i + 1..])
  {
  }

  lemma ConsumedCons(e: Event, c: seq<Event>)
    ensures Consumed([e] + c) == Input(e) + Consumed(c)
  {
    assert ([e] + c)[1..] == c;
  }

  lemma RenderCons(e: Event, c: seq<Event>, p: Payloads)
    ensures Render([e] + c, p) == Output(e, p) + Render(c, p)
  {
    assert ([e] + c)[1..] == c;
  }

  /** Event `i` writes its bytes where the events before it stopped writing. */
  lemma RenderAt(t: seq<Event>, i: nat, p: Payloads)
    requires i < |t|
    ensures Render(t, p) == Render(t[..i], p) + (Output(t[i], p) + Render(t[i + 1..], p))
  {
    SplitAt(t, i);
    RenderAppend(t[..i], [t[i]] + t[i + 1..], p);
    RenderCons(t[i], t[i + 1..], p);
  }

  // ---------------------------------------------------------------------
  // The whole pass

  datatype PatchResult = PatchResult(output: seq<byte>, complete: bool)

  /** Some event of the trace fired marker `m`. */
  predicate Honours(t: seq<Event>, m: Marker) {
    exists i :: 0 <= i < |t| && t[i].Fire? && t[i].marker == m
  }

  /** Every marker has a fire event in the trace. */
  predicate AllHonoured(t: seq<Event>) {
    forall m :: Honours(t, m)
  }

  /** Every marker has been honoured exactly when all three are in `Fired`. */
  lemma AllFiredMeans(t: seq<Event>)
    ensures (Functions in Fired(t) && Colors in Fired(t) && Default in Fired(t))
            <==> forall m :: Honours(t, m)
  {
    forall m
      ensures m in Fired(t) <==> Honours(t, m)
    {
      if m in Fired(t) {
        FiredOnlyByEvents(t, m);
      }
      if Honours(t, m) {
        var i :| 0 <= i < |t| && t[i].Fire? && t[i].marker == m;
        FiredByEvent(t, i);
      }
    }
    if Functions in Fired(t) && Colors in Fired(t) && Default in Fired(t) {
      forall m
        ensures Honours(t, m)
      {
        match m
        case Functions =>
        case Colors =>
        case Default =>
      }
    }
  }

  /** `save_to_file`'s pass over the donor, from the initial window with no
      marker honoured.  The output is produced whether or not every marker
      was found; `complete` is what decides between the success and the
      warning message. */
  function Patch(donor: seq<byte>, p: Payloads): (r: PatchResult)
    ensures r.complete <==> AllHonoured(Scan(donor, Start()))
  {
    Outcome(Scan(donor, Start()), p)
  }

  /** What a trace writes, and whether it honoured all three markers. */
  function Outcome(t: seq<Event>, p: Payloads): (r: PatchResult)
    ensures r.output == Render(t, p)
    ensures r.complete <==> AllHonoured(t)
  {
    AllFiredMeans(t);
    PatchResult(Render(t, p), Functions in Fired(t) && Colors in Fired(t) && Default in Fired(t))
  }

  /** Where every marker is already honoured nothing fires, and the rest of
      the donor is copied unchanged; in particular a second occurrence of a
      marker is copied like any other bytes. */
  lemma {:induction false} CopyWhenAllFired(donor: seq<byte>, window: seq<byte>, p: Payloads)
    ensures Render(Scan(donor, ScanState(window, AllMarkers)), p) == donor
    decreases |donor|
  {
    if |donor| > 0 {
      var w := Slide(window, donor[0]);
      assert Match(w, AllMarkers).None?;
      CopyWhenAllFired(donor[1..], w, p);
    }
  }

  /** With payloads sized to their placeholders the patched image is as
      long as the donor, plus whatever a skip cut short by the end of the
      donor failed to discard. */
  lemma PatchLength(donor: seq<byte>, p: Payloads)
    requires SizedPayloads(p)
    ensures |Patch(donor, p).output| == |donor| + Shortfall(Scan(donor, Start()))
  {
    var st := Start();
    var t := Scan(donor, st);
    ScanMeetsSpec(donor, st);
    forall i | 0 <= i < |t| && t[i].Fire?
      ensures |t[i].skipped| <= SkipCount(t[i].marker)
    {
      assert EventOk(t, i, st);
    }
    RenderLength(t, p);
  }

  /** With sized payloads and every skip inside the donor, the patched image
      is exactly as long as the donor. */
  lemma PatchPreservesLength(donor: seq<byte>, p: Payloads)
    requires SizedPayloads(p)
    requires Shortfall(Scan(donor, Start())) == 0
    ensures |Patch(donor, p).output| == |donor|
  {
    PatchLength(donor, p);
  }

  lemma SliceMiddle(a: seq<byte>, b: seq<byte>, c: seq<byte>)
    ensures |a| + |b| <= |a + (b + c)| && (a + (b + c))[|a|..|a| + |b|] == b
  {
  }

  /** In any trace, event `i` writes its bytes at the output position
      where the events before it stopped writing. */
  lemma WriteSite(t: seq<Event>, p: Payloads, i: nat)
    requires i < |t|
    ensures var at, written := |Render(t[..i], p)|, Output(t[i], p);
            at + |written| <= |Render(t, p)| && Render(t, p)[at..at + |written|] == written
  {
    RenderAt(t, i, p);
    SliceMiddle(Render(t[..i], p), Output(t[i], p), Render(t[i + 1..], p));
  }

  /** In any trace, the bytes event `i` accounts for are read where the
      events before it stopped reading. */
  lemma ReadSite(t: seq<Event>, i: nat)
    requires i < |t|
    ensures var from, read := |Consumed(t[..i])|, Input(t[i]);
            from + |read| <= |Consumed(t)| && Consumed(t)[from..from + |read|] == read
  {
    ConsumedAt(t, i);
    SliceMiddle(Consumed(t[..i]), Input(t[i]), Consumed(t[i + 1..]));
  }

  /** In the patched image, a copied donor byte appears unchanged at the
      position where the events before it stopped writing. */
  lemma PatchCopySite(donor: seq<byte>, p: Payloads, i: nat)
    requires i < |Scan(donor, Start())| && Scan(donor, Start())[i].Copy?
    ensures var t := Scan(donor, Start());
            var out := Patch(donor, p).output;
            var at, from := |Render(t[..i], p)|, |Consumed(t[..i])|;
            at < |out| && from < |donor| && out[at] == donor[from] == t[i].b
  {
    var t := Scan(donor, Start());
    TraceCopySite(t, Patch(donor, p).output, donor, p, i);
  }

  /** In the patched image, a fired marker writes its whole payload where
      the events before it stopped writing. */
  lemma PatchFireSite(donor: seq<byte>, p: Payloads, i: nat)
    requires i < |Scan(donor, Start())| && Scan(donor, Start())[i].Fire?
    ensures var t := Scan(donor, Start());
            var out := Patch(donor, p).output;
            var at, payload := |Render(t[..i], p)|, PayloadFor(p, t[i].marker);
            at + |payload| <= |out| && out[at..at + |payload|] == payload
  {
    var t := Scan(donor, Start());
    var out := Patch(donor, p).output;
    assert out == Render(t, p);
    TraceFireSite(t, out, p, i);
  }

  /** What a fired marker stands for in the donor: its completing byte and
      the skipped bytes, read where the events before it stopped reading. */
  lemma DonorFireSite(donor: seq<byte>, i: nat)
    requires i < |Scan(donor, Start())| && Scan(donor, Start())[i].Fire?
    ensures var t := Scan(donor, Start());
            var from, read := |Consumed(t[..i])|, [t[i].b] + t[i].skipped;
            from + |read| <= |donor| && donor[from..from + |read|] == read
  {
    var t := Scan(donor, Start());
    TraceReadSite(t, donor, i);
  }

  /** `PatchCopySite` for any trace, the output it renders and the bytes it
      consumes. */
  lemma TraceCopySite(t: seq<Event>, out: seq<byte>, donor: seq<byte>, p: Payloads, i: nat)
    requires i < |t| && t[i].Copy? && out == Render(t, p) && donor == Consumed(t)
    ensures var at, from := |Render(t[..i], p)|, |Consumed(t[..i])|;
            at < |out| && from < |donor| && out[at] == donor[from] == t[i].b
  {
    WriteSite(t, p, i);
    ReadSite(t, i);
    var at, from := |Render(t[..i], p)|, |Consumed(t[..i])|;
    assert out[at] == out[at..at + 1][0];
    assert donor[from] == donor[from..from + 1][0];
  }

  /** `PatchFireSite` for any trace and the output it renders. */
  lemma TraceFireSite(t: seq<Event>, out: seq<byte>, p: Payloads, i: nat)
    requires i < |t| && t[i].Fire? && out == Render(t, p)
    ensures var at, payload := |Render(t[..i], p)|, PayloadFor(p, t[i].marker);
            at + |payload| <= |out| && out[at..at + |payload|] == payload
  {
    WriteSite(t, p, i);
  }

  /** `DonorFireSite` for any trace and the bytes it consumes. */
  lemma TraceReadSite(t: seq<Event>, donor: seq<byte>, i: nat)
    requires i < |t| && t[i].Fire? && donor == Consumed(t)
    ensures var from, read := |Consumed(t[..i])|, [t[i].b] + t[i].skipped;
            from + |read| <= |donor| && donor[from..from + |read|] == read
  {
    ReadSite(t, i);
  }

  /** A marker can only fire on the twentieth scanned byte or later: before
      that the window still starts with one of the initial ASCII digits. */
  lemma NoEarlyFire(donor: seq<byte>, i: nat)
    requires i < |Scan(donor, Start())|
    requires Scan(donor, Start())[i].Fire?
    ensures i + 1 >= WindowSize
  {
    var st := Start();
    var t := Scan(donor, st);
    ScanMeetsSpec(donor, st);
    assert EventOk(t, i, st);
    var s := Scanned(t[..i]) + [t[i].b];
    MarkerFacts();
  }
}

=== FILE: preview.dfy ===
/** The preview sent over the serial line: the LCD is cleared, given the
    screen's backlight colour, then sent the screen's image as 32 display
    commands of sixteen bytes each (eight segments of sixteen columns, four
    planes per segment).  Only the command text is modelled; the port, its
    opening and the pauses between writes are not. */
module Preview {
  import opened Base
  import opened Text
  import Bitmap
  import ColorConfig

  /** One command line of the keyboard's command-line interface. */
  datatype Command =
    | Init                                               // "lcdInit"
    | Color(r: nat, g: nat, b: nat)                      // "lcdColor R G B"
    | Disp(plane: nat, offset: nat, data: seq<nat>)      // "lcdDisp plane offset byte..."

  // ---------------------------------------------------------------------
  // Encoding

  /** Every word followed by one space. */
  function Tokens(ws: seq<string>): string {
    if |ws| == 0 then "" else ws[0] + " " + Tokens(ws[1..])
  }

  function HexAll(data: seq<nat>): (hs: seq<string>)
    ensures |hs| == |data| && forall j :: 0 <= j < |data| ==> hs[j] == Hex(data[j])
  {
    seq(|data|, j requires 0 <= j < |data| => Hex(data[j]))
  }

  /** The text written for a command, carriage return included: decimal
      colour values and `hex()` for everything `lcdDisp` takes. */
  function Encode(c: Command): (s: string)
    ensures |s| >= 8 && s[|s| - 1] == '\r'
    ensures c.Init? ==> s == "lcdInit\r"
    ensures c.Color? ==> |s| > 9 && s[..9] == "lcdColor "
    ensures c.Disp? ==> |s| > 8 && s[..8] == "lcdDisp "
  {
    match c
    case Init => "lcdInit\r"
    case Color(r, g, b) =>
      var ws := ["lcdColor", Decimal(r), Decimal(g), Decimal(b)];
      assert Tokens(ws) == "lcdColor " + Tokens(ws[1..]);
      Tokens(ws) + "\r"
    case Disp(z, off, data) =>
      var ws := ["lcdDisp", Hex(z), Hex(off)] + HexAll(data);
      assert Tokens(ws) == "lcdDisp " + Tokens(ws[1..]);
      Tokens(ws) + "\r"
  }

  // ---------------------------------------------------------------------
  // Decoding, as the receiving command line reads a line

  function FirstSpace(s: string): (i: nat)
    ensures i <= |s|
    ensures forall j :: 0 <= j < i ==> s[j] != ' '
    ensures i < |s| ==> s[i] == ' '
  {
    if |s| == 0 || s[0] == ' ' then 0 else 1 + FirstSpace(s[1..])
  }

  /** The words of a text in which every word is ended by one space; None
      when the text does not end in a space. */
  function Words(s: string): (r: Option<seq<string>>)
    decreases |s|
  {
    if |s| == 0 then Some([])
    else
      var i := FirstSpace(s);
      if i == |s| then None
      else
        match Words(s[i + 1..])
        case None => None
        case Some(rest) => Some([s[..i]] + rest)
  }

  predicate NoSpace(w: string) {
    forall j :: 0 <= j < |w| ==> w[j] != ' '
  }

  /** Splitting undoes `Tokens` for words without spaces. */
  lemma {:induction false} WordsTokens(ws: seq<string>)
    requires forall k :: 0 <= k < |ws| ==> NoSpace(ws[k])
    ensures Words(Tokens(ws)) == Some(ws)
  {
    if |ws| > 0 {
      var s := Tokens(ws);
      var w := ws[0];
      var rest := Tokens(ws[1..]);
      assert s == w + (" " + rest);
      assert FirstSpace(s) == |w| by {
        FirstSpaceAt(s, w);
      }
      assert s[..|w|] == w;
      assert s[|w| + 1..] == rest;
      WordsTokens(ws[1..]);
      assert [w] + ws[1..] == ws;
    }
  }

  lemma FirstSpaceAt(s: string, w: string)
    requires NoSpace(w) && |s| > |w| && s[..|w|] == w && s[|w|] == ' '
    ensures FirstSpace(s) == |w|
  {
    assert forall j :: 0 <= j < |w| ==> s[j] == w[j];
  }

  /** A run of decimal digits without a leading zero, the form `str()`
      prints. */
  function ParseDecimal(w: string): (r: Option<nat>)
    ensures r.Some? ==> |w| >= 1 && AllDigits(w)
  {
    if |w| >= 1 && AllDigits(w) && NoLeadingZero(w) then Some(ValueOf(w, 10)) else None
  }

  /** Only `str(v)` itself is read back as `v`. */
  lemma DecimalCanonical(w: string, v: nat)
    requires ParseDecimal(w) == Some(v)
    ensures w == Decimal(v)
  {
    DigitsUnique(w, 10);
  }

  function ParseHexAll(ws: seq<string>): (r: Option<seq<nat>>)
    ensures r.Some? ==> |r.value| == |ws|
  {
    if |ws| == 0 then Some([])
    else
      match (ParseHex(ws[0]), ParseHexAll(ws[1..]))
      case (Some(v), Some(vs)) => Some([v] + vs)
      case _ => None
  }

  /** The command a line's words stand for. */
  function Interpret(ws: seq<string>): Option<Command> {
    if |ws| == 4 && ws[0] == "lcdColor" then
      match (ParseDecimal(ws[1]), ParseDecimal(ws[2]), ParseDecimal(ws[3]))
      case (Some(r), Some(g), Some(b)) => Some(Color(r, g, b))
      case _ => None
    else if |ws| >= 3 && ws[0] == "lcdDisp" then
      match (ParseHex(ws[1]), ParseHex(ws[2]), ParseHexAll(ws[3..]))
      case (Some(z), Some(off), Some(data)) => Some(Disp(z, off, data))
      case _ => None
    else None
  }

  /** The command a line of text stands for, or None if it is none of the
      three. */
  function Decode(line: string): (r: Option<Command>) {
    if line == "lcdInit\r" then Some(Init)
    else if |line| == 0 || line[|line| - 1] != '\r' then None
    else
      match Words(line[..|line| - 1])
      case None => None
      case Some(ws) => Interpret(ws)
  }

  /** Splitting yields words that `Tokens` joins back into the same text. */
  lemma {:induction false} TokensWords(s: string, ws: seq<string>)
    requires Words(s) == Some(ws)
    ensures Tokens(ws) == s
    decreases |s|
  {
    if |s| > 0 {
      var i := FirstSpace(s);
      var rest := Words(s[i + 1..]).value;
      TokensWords(s[i + 1..], rest);
      assert ws[0] == s[..i] && ws[1..] == rest;
      assert s == s[..i] + " " + s[i + 1..];
    }
  }

  /** Only the `hex()` strings of the values are read back as those values. */
  lemma {:induction false} HexAllCanonical(ws: seq<string>, data: seq<nat>)
    requires ParseHexAll(ws) == Some(data)
    ensures ws == HexAll(data)
  {
    if |ws| > 0 {
      var v := ParseHex(ws[0]).value;
      var vs := ParseHexAll(ws[1..]).value;
      assert data == [v] + vs;
      HexCanonical(ws[0], v);
      HexAllCanonical(ws[1..], vs);
      assert HexAll(data) == [Hex(v)] + HexAll(vs);
      assert ws == [ws[0]] + ws[1..];
    }
  }

  /** The words a command is read from are the words it is written as. */
  lemma InterpretCanonical(ws: seq<string>, c: Command)
    requires Interpret(ws) == Some(c)
    ensures Tokens(ws) + "\r" == Encode(c)
  {
    if ws[0] == "lcdColor" {
      DecimalCanonical(ws[1], c.r);
      DecimalCanonical(ws[2], c.g);
      DecimalCanonical(ws[3], c.b);
      assert ws == ["lcdColor", Decimal(c.r), Decimal(c.g), Decimal(c.b)];
    } else {
      HexCanonical(ws[1], c.plane);
      HexCanonical(ws[2], c.offset);
      HexAllCanonical(ws[3..], c.data);
      assert ws == ["lcdDisp", Hex(c.plane), Hex(c.offset)] + HexAll(c.data);
    }
  }

  /** A line is read as a command only when it is exactly that command's text,
      so `Decode` and `Encode` are inverse bijections between commands and
      the lines `Decode` accepts. */
  lemma EncodeDecode(line: string, c: Command)
    requires Decode(line) == Some(c)
    ensures line == Encode(c)
  {
    if line == "lcdInit\r" {
      assert c == Init;
    } else {
      assert |line| > 0 && line[|line| - 1] == '\r';
      var body := line[..|line| - 1];
      assert Words(body).Some?;
      var ws := Words(body).value;
      assert Interpret(ws) == Some(c);
      WordsLine(line, body, ws, c);
    }
  }

  /** A line whose words are read as `c` is the text of `c`. */
  lemma WordsLine(line: string, body: string, ws: seq<string>, c: Command)
    requires |line| > 0 && line[|line| - 1] == '\r' && body == line[..|line| - 1]
    requires Words(body) == Some(ws) && Interpret(ws) == Some(c)
    ensures line == Encode(c)
  {
    TokensWords(body, ws);
    InterpretCanonical(ws, c);
    assert line == body + "\r";
  }

  /** A line of words other than "lcdInit" is read through `Interpret`. */
  lemma DecodeTokens(ws: seq<string>)
    requires |ws| >= 1 && |ws[0]| >= 7
    requires forall k :: 0 <= k < |ws| ==> NoSpace(ws[k])
    ensures Decode(Tokens(ws) + "\r") == Interpret(ws)
  {
    var line := Tokens(ws) + "\r";
    WordsTokens(ws);
    assert line[..|line| - 1] == Tokens(ws);
    assert line[|ws[0]|] == ' ';
  }

  lemma DecimalParses(v: nat)
    ensures NoSpace(Decimal(v)) && ParseDecimal(Decimal(v)) == Some(v)
  {
    NoSpaceInNumbers(v, 0);
    DigitsRoundTrip(v, 10);
  }

  lemma {:induction false} HexAllParses(data: seq<nat>)
    ensures forall k :: 0 <= k < |data| ==> NoSpace(HexAll(data)[k])
    ensures ParseHexAll(HexAll(data)) == Some(data)
  {
    forall k | 0 <= k < |data|
      ensures NoSpace(HexAll(data)[k])
    {
      NoSpaceInNumbers(0, data[k]);
    }
    if |data| > 0 {
      HexRoundTrip(data[0]);
      assert HexAll(data)[1..] == HexAll(data[1..]);
      HexAllParses(data[1..]);
      assert [data[0]] + data[1..] == data;
    }
  }

  lemma DecodeColor(r: nat, g: nat, b: nat)
    ensures Decode(Encode(Color(r, g, b))) == Some(Color(r, g, b))
  {
    DecimalParses(r);
    DecimalParses(g);
    DecimalParses(b);
    DecodeTokens(["lcdColor", Decimal(r), Decimal(g), Decimal(b)]);
  }

  lemma DecodeDisp(z: nat, off: nat, data: seq<nat>)
    ensures Decode(Encode(Disp(z, off, data))) == Some(Disp(z, off, data))
  {
    var ws := ["lcdDisp", Hex(z), Hex(off)] + HexAll(data);
    NoSpaceInNumbers(0, z);
    NoSpaceInNumbers(0, off);
    HexAllParses(data);
    HexRoundTrip(z);
    HexRoundTrip(off);
    assert ws[3..] == HexAll(data);
    DecodeTokens(ws);
  }

  /** Every command is read back from its text, so no two commands share a
      line. */
  lemma DecodeEncode(c: Command)
    ensures Decode(Encode(c)) == Some(c)
  {
    match c
    case Init =>
    case Color(r, g, b) => DecodeColor(r, g, b);
    case Disp(z, off, data) => DecodeDisp(z, off, data);
  }

  // ---------------------------------------------------------------------
  // The preview of one screen

  /** Byte `x` of plane `z` as the preview sends it: the buffer's byte for a
      column inside the screen, 0 for the columns a 32-wide screen lacks. */
  function Item(buf: seq<byte>, w: nat, z: nat, x: nat): (v: nat)
    requires |buf| == 4 * w && z < 4
    ensures v < 256
    ensures x >= w ==> v == 0
  {
    if x < w then Bitmap.At(buf, w, z, x) else 0
  }

  /** Bytes `start` .. `start + count - 1` of plane `z`, in column order. */
  function Items(buf: seq<byte>, w: nat, z: nat, start: nat, count: nat): (data: seq<nat>)
    requires |buf| == 4 * w && z < 4
    ensures |data| == count && forall j :: 0 <= j < count ==> data[j] == Item(buf, w, z, start + j)
    decreases count
  {
    if count == 0 then [] else [Item(buf, w, z, start)] + Items(buf, w, z, start + 1, count - 1)
  }

  /** `lcdDisp` for plane `z` and segment `seg`: offset `16 * seg`, then the
      sixteen bytes of columns `16 * seg` .. `16 * seg + 15`. */
  function DispCommand(buf: seq<byte>, w: nat, seg: nat, z: nat): (c: Command)
    requires |buf| == 4 * w && z < 4
  {
    Disp(z, 16 * seg, Items(buf, w, z, 16 * seg, 16))
  }

  /** The commands `preview_setting` sends for screen `n`: clear, colour,
      then segments 0..7 with planes 0..3 inside each. */
  function PreviewCommands(n: nat, color: ColorConfig.Rgb, buf: seq<byte>): (cs: seq<Command>)
    requires n < 8 && ColorConfig.InRange(color) && |buf| == 4 * Bitmap.ScreenWidth(n)
    ensures |cs| == 34
    ensures cs[0] == Init
    ensures cs[1] == Color(ColorConfig.DeviceValue(color.r), ColorConfig.DeviceValue(color.g), ColorConfig.DeviceValue(color.b))
    ensures forall k :: 2 <= k < 34 ==> cs[k].Disp? && |cs[k].data| == 16 && cs[k].plane == (k - 2) % 4 && cs[k].offset == 16 * ((k - 2) / 4)
  {
    var w := Bitmap.ScreenWidth(n);
    [Init, Color(ColorConfig.DeviceValue(color.r), ColorConfig.DeviceValue(color.g), ColorConfig.DeviceValue(color.b))]
      + seq(32, k requires 0 <= k < 32 => DispCommand(buf, w, k / 4, k % 4))
  }

  /** The text written to the serial port. */
  function PreviewLines(n: nat, color: ColorConfig.Rgb, buf: seq<byte>): (lines: seq<string>)
    requires n < 8 && ColorConfig.InRange(color) && |buf| == 4 * Bitmap.ScreenWidth(n)
    ensures |lines| == 34
    ensures forall k :: 0 <= k < 34 ==> Decode(lines[k]) == Some(PreviewCommands(n, color, buf)[k])
  {
    var cs := PreviewCommands(n, color, buf);
    forall k | 0 <= k < 34
      ensures Decode(Encode(cs[k])) == Some(cs[k])
    {
      DecodeEncode(cs[k]);
    }
    seq(34, k requires 0 <= k < 34 => Encode(cs[k]))
  }

  /** Every byte of the screen's buffer reaches the device exactly where it
      belongs: column `x` of plane `z` is item `x % 16` of the one command
      for plane `z` whose sixteen columns include `x`, and columns beyond a
      32-wide screen are sent as 0. */
  lemma PreviewCoversScreen(n: nat, color: ColorConfig.Rgb, buf: seq<byte>, z: nat, x: nat)
    requires n < 8 && ColorConfig.InRange(color) && |buf| == 4 * Bitmap.ScreenWidth(n)
    requires z < 4 && x < 128
    ensures var cs := PreviewCommands(n, color, buf);
            var w := Bitmap.ScreenWidth(n);
            var c := cs[2 + 4 * (x / 16) + z];
            && c.Disp? && c.plane == z && c.offset <= x < c.offset + 16
            && c.data[x - c.offset] == (if x < w then Bitmap.At(buf, w, z, x) else 0)
  {
    var cs := PreviewCommands(n, color, buf);
    var w := Bitmap.ScreenWidth(n);
    var seg := x / 16;
    assert 16 * seg <= x < 16 * seg + 16;
    var k := 4 * seg + z;
    assert k / 4 == seg && k % 4 == z;
    assert cs[2 + k] == DispCommand(buf, w, x / 16, z);
    assert cs[2 + k].data[x - 16 * (x / 16)] == Item(buf, w, z, x);
  }

  /** No two display commands of a preview address the same plane and
      segment, so nothing sent is overwritten by a later command. */
  lemma PreviewTargetsDistinct(n: nat, color: ColorConfig.Rgb, buf: seq<byte>, k1: nat, k2: nat)
    requires n < 8 && ColorConfig.InRange(color) && |buf| == 4 * Bitmap.ScreenWidth(n)
    requires 2 <= k1 < k2 < 34
    ensures var cs := PreviewCommands(n, color, buf);
            (cs[k1].plane, cs[k1].offset) != (cs[k2].plane, cs[k2].offset)
  {
  }

  /** On the 32-wide screens 1..7 segments 2..7 carry nothing but zeros. */
  lemma NarrowScreenPadding(n: nat, color: ColorConfig.Rgb, buf: seq<byte>, k: nat)
    requires 1 <= n < 8 && ColorConfig.InRange(color) && |buf| == 4 * Bitmap.ScreenWidth(n)
    requires 2 + 4 * 2 <= k < 34
    ensures var c := PreviewCommands(n, color, buf)[k];
            forall j :: 0 <= j < 16 ==> c.data[j] == 0
  {
    var cs := PreviewCommands(n, color, buf);
    var seg := (k - 2) / 4;
    assert cs[k] == DispCommand(buf, 32, seg, (k - 2) % 4);
    assert seg >= 2;
    forall j | 0 <= j < 16
      ensures cs[k].data[j] == 0
    {
      assert cs[k].data[j] == Item(buf, 32, (k - 2) % 4, 16 * seg + j);
    }
  }
}

=== FILE: session.dfy ===
/** The editor's state from start-up to save: the packed buffers of the
    eight screens and their colour settings.  Start-up loads and checks the
    eight images, then reads the colour file; saving writes the colour file
    and then patches the donor firmware. */
module Session {
  import opened Base
  import Bitmap
  import ColorConfig
  import Patcher
  import Firmware

  /** Why start-up stopped (each of these closes the application). */
  datatype StartupError =
    | BadImage(size: Bitmap.SizeError)
    | BadColors(config: ColorConfig.ConfigError)

  datatype Editor = Editor(buffers: seq<seq<byte>>, colors: seq<ColorConfig.Rgb>)

  predicate ImagesOk(images: seq<Bitmap.Image>) {
    |images| == 8 && forall n :: 0 <= n < 8 ==> images[n].Valid()
  }

  /** The size checks and packing of screens `n` .. 7, in screen order: the
      first screen of the wrong size is the one reported. */
  function LoadImages(images: seq<Bitmap.Image>, n: nat): (r: Result<seq<seq<byte>>, Bitmap.SizeError>)
    requires ImagesOk(images) && n <= 8
    ensures r.Ok? <==> forall i :: n <= i < 8 ==> Bitmap.SizeOk(i, images[i])
    ensures r.Ok? ==> |r.value| == 8 - n && forall i :: n <= i < 8 ==>
              |r.value[i - n]| == 4 * Bitmap.ScreenWidth(i)
              && Bitmap.Unpack(r.value[i - n], Bitmap.ScreenWidth(i)) == images[i].black
    ensures r.Err? ==>
              && n <= r.error.screen < 8
              && !Bitmap.SizeOk(r.error.screen, images[r.error.screen])
              && (forall i :: n <= i < r.error.screen ==> Bitmap.SizeOk(i, images[i]))
    decreases 8 - n
  {
    if n == 8 then Ok([])
    else
      match Bitmap.LoadImage(n, images[n])
      case Err(e) => Err(e)
      case Ok(buf) =>
        match LoadImages(images, n + 1)
        case Err(e) => Err(e)
        case Ok(rest) =>
          var bufs := [buf] + rest;
          assert forall j :: 0 <= j < |rest| ==> bufs[j + 1] == rest[j];
          Ok(bufs)
  }

  /** `Application.__init__` without the window: every image is checked and
      packed before the colour file is read. */
  function Startup(images: seq<Bitmap.Image>, colorText: string): (r: Result<Editor, StartupError>)
    requires ImagesOk(images)
    ensures r.Ok? <==> (forall n :: 0 <= n < 8 ==> Bitmap.SizeOk(n, images[n])) && ColorConfig.LoadColors(colorText).Ok?
    ensures r.Ok? ==>
              && Firmware.BuffersOk(r.value.buffers)
              && Firmware.ColorsOk(r.value.colors)
              && r.value.colors == ColorConfig.LoadColors(colorText).value
              && forall n :: 0 <= n < 8 ==> Bitmap.Unpack(r.value.buffers[n], Bitmap.ScreenWidth(n)) == images[n].black
    ensures r.Err? && r.error.BadImage? ==>
              var s := r.error.size.screen;
              s < 8 && !Bitmap.SizeOk(s, images[s]) && forall n :: 0 <= n < s ==> Bitmap.SizeOk(n, images[n])
    ensures r.Err? && r.error.BadColors? ==>
              (forall n :: 0 <= n < 8 ==> Bitmap.SizeOk(n, images[n]))
              && ColorConfig.LoadColors(colorText) == Err(r.error.config)
  {
    match LoadImages(images, 0)
    case Err(e) => Err(BadImage(e))
    case Ok(bufs) =>
      match ColorConfig.LoadColors(colorText)
      case Err(e) => Err(BadColors(e))
      case Ok(cs) =>
        assert forall n :: 0 <= n < 8 ==> |bufs[n]| == 4 * Bitmap.ScreenWidth(n) by {
          forall n | 0 <= n < 8
            ensures |bufs[n]| == 4 * Bitmap.ScreenWidth(n)
          {
            assert bufs[n] == bufs[n - 0];
          }
        }
        Ok(Editor(bufs, cs))
  }

  /** "Save": the colour file first, then the patched firmware image. */
  function Save(e: Editor, donor: seq<byte>): (r: (string, Patcher.PatchResult))
    requires Firmware.BuffersOk(e.buffers) && Firmware.ColorsOk(e.colors)
    ensures ColorConfig.LoadColors(r.0) == Ok(e.colors)
    ensures r.1 == Firmware.SaveFirmware(donor, e.buffers, e.colors)
  {
    ColorConfig.SaveLoadInRange(e.colors);
    (ColorConfig.SaveColors(e.colors), Firmware.SaveFirmware(donor, e.buffers, e.colors))
  }

  /** The buffers start-up holds are exactly the packed images. */
  lemma StartupPacks(images: seq<Bitmap.Image>, colorText: string)
    requires ImagesOk(images) && Startup(images, colorText).Ok?
    ensures forall n :: 0 <= n < 8 ==> Startup(images, colorText).value.buffers[n] == Bitmap.Pack(images[n])
  {
    var bufs := Startup(images, colorText).value.buffers;
    forall n | 0 <= n < 8
      ensures bufs[n] == Bitmap.Pack(images[n])
    {
      var w := Bitmap.ScreenWidth(n);
      Bitmap.PackUnpack(bufs[n], w);
      assert images[n] == Bitmap.Image(w, Bitmap.Height, Bitmap.Unpack(bufs[n], w));
    }
  }

  /** Starting again from the saved colour file and the same images gives
      back the editor that was saved, when its buffers are the packed images. */
  lemma SaveRestart(images: seq<Bitmap.Image>, e: Editor, donor: seq<byte>)
    requires ImagesOk(images)
    requires Firmware.BuffersOk(e.buffers) && Firmware.ColorsOk(e.colors)
    requires forall n :: 0 <= n < 8 ==> Bitmap.SizeOk(n, images[n]) && e.buffers[n] == Bitmap.Pack(images[n])
    ensures Startup(images, Save(e, donor).0) == Ok(e)
  {
    RestartFrom(images, e, Save(e, donor).0);
  }

  /** Start-up from the images an editor's buffers pack and a colour file
      that loads as its colours gives back that editor. */
  lemma RestartFrom(images: seq<Bitmap.Image>, e: Editor, colorText: string)
    requires ImagesOk(images) && |e.buffers| == 8
    requires forall n :: 0 <= n < 8 ==> Bitmap.SizeOk(n, images[n]) && e.buffers[n] == Bitmap.Pack(images[n])
    requires ColorConfig.LoadColors(colorText) == Ok(e.colors)
    ensures Startup(images, colorText) == Ok(e)
  {
    StartupPacks(images, colorText);
    var bufs := Startup(images, colorText).value.buffers;
    assert bufs == e.buffers;
  }
}

=== FILE: text.dfy ===
/** Number formatting and parsing as the editor uses it: Python's `str()` and
    `hex()` on non-negative integers, and `int()` on one line of the colour
    file (the whitespace `int()` skips, an optional sign and one or more
    ASCII decimal digits). */
module Text {
  import opened Base

  predicate IsDigit(c: char) {
    '0' <= c <= '9'
  }

  /** The digits `hex()` prints: 0-9 and lower-case a-f. */
  predicate IsHexDigit(c: char) {
    '0' <= c <= '9' || 'a' <= c <= 'f'
  }

  /** The characters `str.isspace()` accepts, which `str.rstrip()` removes:
      the ASCII controls 9..13 and 28..31,
      the space, and the Unicode separators (NEL, no-break space, Ogham space
      mark, the spaces 2000..200A, line and paragraph separators, narrow
      no-break space, medium mathematical space, ideographic space). */
  predicate IsSpace(c: char) {
    var n := c as int;
    || 9 <= n <= 13 || 28 <= n <= 32
    || n == 0x85 || n == 0xA0 || n == 0x1680
    || 0x2000 <= n <= 0x200A || n == 0x2028 || n == 0x2029
    || n == 0x202F || n == 0x205F || n == 0x3000
  }

  /** The characters `int()` skips around a number: the ASCII whitespace
      9..13 and the space, and every non-ASCII character `str.isspace()`
      accepts.  The ASCII separators 28..31 are not skipped, so `int()`
      rejects a number they follow or precede. */
  predicate IsIntSpace(c: char) {
    var n := c as int;
    9 <= n <= 13 || n == 32 || (n >= 0x80 && IsSpace(c))
  }

  function DigitChar(d: nat): (c: char)
    requires d < 16
    ensures IsHexDigit(c)
    ensures d < 10 ==> IsDigit(c)
  {
    if d < 10 then (48 + d) as char else (87 + d) as char
  }

  function DigitValue(c: char): (d: nat)
    requires IsHexDigit(c)
    ensures d < 16
  {
    if IsDigit(c) then c as int - 48 else c as int - 87
  }

  lemma DigitCharValue(d: nat)
    requires d < 16
    ensures DigitValue(DigitChar(d)) == d
  {
  }

  // ---------------------------------------------------------------------
  // Formatting

  /** Positional notation of `n` in `base`, most significant digit first,
      without leading zeros (a single "0" for zero). */
  function Digits(n: nat, base: nat): (s: string)
    requires base == 10 || base == 16
    ensures |s| >= 1
    ensures forall i :: 0 <= i < |s| ==> IsHexDigit(s[i])
    ensures base == 10 ==> forall i :: 0 <= i < |s| ==> IsDigit(s[i])
    ensures NoLeadingZero(s)
    ensures n > 0 ==> s[0] != '0'
    decreases n
  {
    if n < base then [DigitChar(n)] else Digits(n / base, base) + [DigitChar(n % base)]
  }

  /** A digit string in the form `str()` and `hex()` print: no '0' in front
      of another digit. */
  predicate NoLeadingZero(s: string) {
    |s| > 1 ==> s[0] != '0'
  }

  /** Python `str(n)` for an integer. */
  function Decimal(v: int): (s: string)
    ensures |s| >= 1
    ensures v >= 0 ==> forall i :: 0 <= i < |s| ==> IsDigit(s[i])
    ensures v < 0 ==> s[0] == '-' && forall i :: 1 <= i < |s| ==> IsDigit(s[i])
  {
    if v < 0 then "-" + Digits(-v, 10) else Digits(v, 10)
  }

  /** Python `hex(n)` for a non-negative integer: "0x", then lower-case
      digits with no padding. */
  function Hex(n: nat): (s: string)
    ensures |s| >= 3 && s[..2] == "0x"
    ensures forall i :: 2 <= i < |s| ==> IsHexDigit(s[i])
    ensures n < 16 ==> |s| == 3
  {
    "0x" + Digits(n, 16)
  }

  // ---------------------------------------------------------------------
  // Parsing

  /** The value of a digit string in `base`, most significant digit first. */
  function ValueOf(s: string, base: nat): nat
    requires base == 10 || base == 16
    requires forall i :: 0 <= i < |s| ==> IsHexDigit(s[i])
  {
    if |s| == 0 then 0 else ValueOf(s[..|s| - 1], base) * base + DigitValue(s[|s| - 1])
  }

  /** Reading digits back yields the number that was formatted. */
  lemma {:induction false} DigitsRoundTrip(n: nat, base: nat)
    requires base == 10 || base == 16
    ensures ValueOf(Digits(n, base), base) == n
    decreases n
  {
    var s := Digits(n, base);
    if n >= base {
      var q, d := n / base, n % base;
      DigitsRoundTrip(q, base);
      assert s[..|s| - 1] == Digits(q, base);
      DigitCharValue(d);
      assert ValueOf(s, base) == q * base + d;
    } else {
      DigitCharValue(n);
    }
  }

  /** The whitespace `int()` skips in front of a number, removed. */
  function IntStripLeft(s: string): (t: string)
    ensures |t| <= |s| && t == s[|s| - |t|..]
    ensures |t| > 0 ==> !IsIntSpace(t[0])
  {
    if |s| > 0 && IsIntSpace(s[0]) then IntStripLeft(s[1..]) else s
  }

  /** The whitespace `int()` skips after a number, removed. */
  function IntStripRight(s: string): (t: string)
    ensures |t| <= |s| && t == s[..|t|]
    ensures |t| > 0 ==> !IsIntSpace(t[|t| - 1])
  {
    if |s| > 0 && IsIntSpace(s[|s| - 1]) then IntStripRight(s[..|s| - 1]) else s
  }

  /** Python `s.rstrip()`: trailing whitespace of every kind `IsSpace` names
      is removed. */
  function StripRight(s: string): (t: string)
    ensures |t| <= |s| && t == s[..|t|]
    ensures |t| > 0 ==> !IsSpace(t[|t| - 1])
  {
    if |s| > 0 && IsSpace(s[|s| - 1]) then StripRight(s[..|s| - 1]) else s
  }

  /** The text `int()` reads a number from. */
  function IntStrip(s: string): string {
    IntStripLeft(IntStripRight(s))
  }

  predicate AllDigits(s: string) {
    forall i :: 0 <= i < |s| ==> IsDigit(s[i])
  }

  /** Python `int(line)`: None where `int` raises ValueError. */
  function ParseInt(line: string): (r: Option<int>)
    ensures r.Some? ==> |IntStrip(line)| >= 1
    ensures r.Some? && r.value < 0 ==> IntStrip(line)[0] == '-'
    ensures r.Some? ==> AllDigits(IntStrip(line)[1..])
  {
    var t := IntStrip(line);
    if |t| == 0 then None
    else
      var ds := if t[0] == '-' || t[0] == '+' then t[1..] else t;
      if |ds| == 0 || !AllDigits(ds) then None
      else
        var n: int := ValueOf(ds, 10);
        if t[0] == '-' then Some(-n) else Some(n)
  }

  /** Reading a `hex()` string back: None unless the text is "0x" followed by
      one or more lower-case hexadecimal digits without a leading zero. */
  function ParseHex(s: string): (r: Option<nat>)
    ensures r.Some? ==> |s| >= 3 && s[..2] == "0x"
  {
    if |s| >= 3 && s[..2] == "0x" && (forall i :: 2 <= i < |s| ==> IsHexDigit(s[i])) && NoLeadingZero(s[2..])
    then Some(ValueOf(s[2..], 16))
    else None
  }

  lemma DigitValueChar(c: char)
    requires IsHexDigit(c)
    ensures DigitChar(DigitValue(c)) == c
  {
  }

  /** A digit string that starts with a non-zero digit has a positive value. */
  lemma {:induction false} LeadingDigitPositive(s: string, base: nat)
    requires base == 10 || base == 16
    requires |s| >= 1 && s[0] != '0'
    requires forall i :: 0 <= i < |s| ==> IsHexDigit(s[i])
    ensures ValueOf(s, base) >= 1
  {
    if |s| > 1 {
      LeadingDigitPositive(s[..|s| - 1], base);
    }
  }

  /** Appending digit `d` to `q` in `base` and splitting it off again. */
  lemma ShiftDigit(q: nat, d: nat, base: nat)
    requires base == 10 || base == 16
    requires q >= 1 && d < base
    ensures q * base + d >= base
    ensures (q * base + d) / base == q && (q * base + d) % base == d
  {
  }

  /** Each number has one spelling without leading zeros: a digit string of
      that form (every digit below `base`) is the `Digits` of its value. */
  lemma {:induction false} DigitsUnique(s: string, base: nat)
    requires base == 10 || base == 16
    requires |s| >= 1 && NoLeadingZero(s)
    requires forall i :: 0 <= i < |s| ==> IsHexDigit(s[i])
    requires base == 10 ==> forall i :: 0 <= i < |s| ==> IsDigit(s[i])
    ensures Digits(ValueOf(s, base), base) == s
  {
    var n := ValueOf(s, base);
    var last := s[|s| - 1];
    DigitValueChar(last);
    if |s| == 1 {
      assert n == DigitValue(last);
    } else {
      var front := s[..|s| - 1];
      LeadingDigitPositive(front, base);
      DigitsUnique(front, base);
      assert n == ValueOf(front, base) * base + DigitValue(last);
      ShiftDigit(ValueOf(front, base), DigitValue(last), base);
      assert front + [last] == s;
    }
  }

  /** Stripping a line written as `str(v) + "\n"` leaves `str(v)`. */
  lemma StripDecimalLine(v: int)
    ensures IntStrip(Decimal(v) + "\n") == Decimal(v)
  {
    var s := Decimal(v);
    var line := s + "\n";
    assert line[..|line| - 1] == s;
    assert IntStripRight(line) == IntStripRight(s);
    assert !IsIntSpace(s[|s| - 1]);
    assert IntStripRight(s) == s;
    assert !IsIntSpace(s[0]);
    assert IntStripLeft(s) == s;
  }

  /** A line written as `str(v) + "\n"` is read back by `int()` as `v`. */
  lemma DecimalLineRoundTrip(v: int)
    ensures ParseInt(Decimal(v) + "\n") == Some(v)
  {
    var s := Decimal(v);
    StripDecimalLine(v);
    if v < 0 {
      assert s[1..] == Digits(-v, 10);
      DigitsRoundTrip(-v, 10);
    } else {
      assert s == Digits(v, 10);
      DigitsRoundTrip(v, 10);
    }
  }

  /** The no-break space and the newline after "5" are both skipped. */
  lemma NoBreakSpaceStripped(a: string)
    requires a == "5\U{00A0}\n"
    ensures IntStrip(a) == "5"
  {
    var a2, a1 := a[..2], a[..1];
    assert a2[..1] == a1 && a[..|a| - 1] == a2 && a1 == "5";
    assert IsIntSpace(a[2]) && IsIntSpace(a2[1]) && !IsIntSpace(a1[0]);
    assert IntStripRight(a1) == a1;
    assert IntStripRight(a2) == a1;
    assert IntStripRight(a) == a1;
    assert IntStripLeft(a1) == a1;
  }

  /** `int()` skips a trailing no-break space, which `str.isspace()`
      accepts. */
  lemma IntSkipsNoBreakSpace()
    ensures ParseInt("5\U{00A0}\n") == Some(5)
  {
    NoBreakSpaceStripped("5\U{00A0}\n");
    var t := "5";
    assert t[0] != '-' && t[0] != '+' && AllDigits(t);
    assert ValueOf(t, 10) == 5;
  }

  /** `int()` does not skip a trailing ASCII file separator (U+001C), though
      `str.isspace()` accepts it, so the line is rejected. */
  lemma IntRejectsSeparator()
    ensures ParseInt("5\U{001C}\n") == None
  {
    var b := "5\U{001C}\n";
    var b2 := b[..2];
    assert b[..|b| - 1] == b2;
    assert IntStripRight(b2) == b2;
    assert IntStripRight(b) == b2;
    assert IntStripLeft(b2) == b2;
    assert !IsDigit(b2[1]);
  }

  /** `hex(n)` is read back as `n`. */
  lemma HexRoundTrip(n: nat)
    ensures ParseHex(Hex(n)) == Some(n)
  {
    assert Hex(n)[2..] == Digits(n, 16);
    DigitsRoundTrip(n, 16);
  }

  /** Only `hex(n)` itself is read back as `n`. */
  lemma HexCanonical(s: string, n: nat)
    requires ParseHex(s) == Some(n)
    ensures s == Hex(n)
  {
    DigitsUnique(s[2..], 16);
    assert s == s[..2] + s[2..];
  }

  /** Decimal and hexadecimal renderings never contain a space, so they can be
      separated by single spaces on a command line. */
  lemma NoSpaceInNumbers(v: int, n: nat)
    ensures forall i :: 0 <= i < |Decimal(v)| ==> Decimal(v)[i] != ' '
    ensures forall i :: 0 <= i < |Hex(n)| ==> Hex(n)[i] != ' '
  {
  }
}
